=== FILE: README.md ===
# Sensor logger core, modelled in Dafny

The logger runs on a Raspberry Pi and reads three devices. A BNO055 inertial measurement unit (IMU) supplies acceleration and angular rate. A GPS receiver supplies position. A DS3231 real-time clock (RTC) names the log files.

A push button starts a session and stops it. While the session runs, the program samples the IMU every 10 ms and the GPS every 500 ms, and records video. When the session stops, it writes the IMU table and then the GPS table to a file named after the RTC time.

The project models the logic behind this:

- **`Bno055`**:
  - mode validation and mode tracking;
  - the ordered register writes of initialisation, with the chip-identity check;
  - axis-sign packing;
  - little-endian two's-complement vector decoding;
  - mode-gated acceleration and gyroscope readings.
- **`Ds3231`**:
  - the binary-coded-decimal (BCD) codec with the century bit;
  - decoding of the seven time registers;
  - the fixed-width `YYYY-mm-dd HH:MM:SS` timestamp;
  - the register writes of `set_time`.
- **`Scheduler`**:
  - `millis()`;
  - the tick functions `log_imu` and `log_gps`;
  - the drift-free schedule that repeated ticks produce.
- **`Session`**: the `start_log` state machine. It covers:
  - the start guard;
  - the header-only buffers;
  - the file and video names;
  - the logging loop;
  - the ordered output when the session stops.
- Supporting modules:
  - **`Bus`** models an I²C register file and a trace of writes;
  - **`Bits`** models Python's `&`, `|`, `<<` and `>>` on non-negative integers;
  - **`Decimal`** models `{n:02d}` and its inverse;
  - **`Options`** provides `Option` and `Result`.

Modelling conventions:

- **I²C bus.** Reads come from a 256-byte register snapshot (`Bus.RegisterFile`). Writes are returned as a trace of `Write(reg, value)`. `Bus.Apply` plays a trace onto a register file, which gives an idealised device that stores what it is sent.
- **Outside inputs.** Clocks, button levels, wall-clock timestamps, GPS readings, the USB-mount test and the RTC register contents are all parameters.
- **Effects.** GPIO, file and camera actions are returned as a trace of `Session.Effect` values.
- **Button.** The session ends on the first pass of the loop that reads the start-button pin high (main.py:118). The pin has a pull-up (main.py:38), so high is the switch's open state. The source does not say whether the switch is momentary or latching. The model therefore speaks only of pin levels: `Low` keeps a session running and `High` stops it.
- **Exceptions.** These become `Result` or `Outcome` values.
- **Arithmetic.** Python's `//` and `divmod` with a positive divisor are floor division. That is what Dafny's `/` and `%` compute, so they are used directly. The real-valued scaling in `acceleration()` and `gyroscope()` is modelled with Dafny `real`.

Where the code's comments or names suggest one behaviour and the code does another, the model follows the code:

- The `CAMERA_TOGGLE` pin is configured (main.py:33 and 39) but never read. The camera is started for every session (main.py:106).
- `rtc.now()` is called separately for the log name and for the video name (main.py:94-95 and 98-99). The two names share a timestamp only when both reads see the same second (`Session.VideoMatchesLog`).

## Model

| member | source | states |
|---|---|---|
| Bus.BlockRead | bno055.py:135 | A block read of `n` bytes from `start` returns exactly `n` bytes, the i-th being register `start + i`. |
| Bus.ApplyLastWriteWins | ds3231.py:63-65 | After a trace of register writes, a register holds the value of its last write, and a register the trace never writes keeps its old value. |
| Bno055.SetMode | bno055.py:123-128 | `mode(m)` succeeds exactly for 0x00, 0x05, 0x07 and 0x0C. On failure nothing is written and `_mode` is unchanged. On success `_mode` is `m` and the only write is `m` to OPR_MODE (0x3D). |
| Bno055.SetModeKeepsTracking | bno055.py:127-128 | After any `mode()` call, valid or not, the driver's `_mode` equals the last value written to OPR_MODE. |
| Bno055.AxisSignValue | bno055.py:105-108 | The packed AXIS_MAP_SIGN value is `4*x + 2*y + z`: x on bit 2, y on bit 1, z on bit 0. |
| Bno055.AxisSignRoundTrip | bno055.py:105-108 | Bits 2, 1 and 0 of the packed value give back the x, y and z signs. |
| Bno055.AxisSignValuesCoverBits | bno055.py:105-108 | Every value below 8 is the packing of the signs read from its own bits, so the packing is onto the 3-bit values. |
| Bno055.SetAxis | bno055.py:102-109 | `_set_axis` issues one write to 0x42. Its value is below 8 and carries each sign on its own bit. |
| Bno055.DefaultAxisSigns | bno055.py:102-103 | With the default arguments (negative, negative, positive), `_set_axis` writes 0x06. |
| Bno055.SetAcc | bno055.py:112-114 | `_set_acc` writes 0x00 to 0x08. |
| Bno055.SetGyr | bno055.py:117-120 | `_set_gyr` writes 0x50 to 0x0A, then 0x00 to 0x0B. |
| Bno055.Reset | bno055.py:91-99 | `_reset` writes CONFIG (0x00) to OPR_MODE (0x3D), then the reset command 0x20 to SYS_TRIGGER (0x3F), and leaves the driver in CONFIG mode. |
| Bno055.Initialize | bno055.py:59-88 | Initialisation fails exactly when the chip-identity register is not 0xA0. It then raises after the single CONFIG write. Otherwise the writes are exactly: CONFIG, CONFIG, reset (0x20 to 0x3F), normal power, units, axis signs 0x06, accelerometer 0x00, gyroscope 0x50 and 0x00, then NDOF. The driver ends in NDOF mode, agreeing with the chip. |
| Bno055.Decode16 | bno055.py:138-140 | A decoded axis lies in [-32768, 32767], and it is negative exactly when the high byte has bit 7 set. |
| Bno055.SignBitOfWord | bno055.py:139 | For a 16-bit word, `w & 0x8000` is non-zero exactly when `w >= 0x8000`. |
| Bno055.Decode16IsBitExpression | bno055.py:138-140 | The arithmetic decoding equals the source's mask-shift-or expression, less 0x10000 when bit 15 is set. |
| Bno055.Int16RoundTrip | bno055.py:137-140 | Decoding the little-endian two's-complement bytes of any 16-bit value gives that value back. |
| Bno055.BytesRoundTrip | bno055.py:137-140 | Encoding a decoded pair of bytes gives the same two bytes back, so the decoding is a bijection. |
| Bno055.Vector | bno055.py:133-141 | `2*count` bytes give exactly `count` values. Each is in 16-bit range and re-encodes to its own two bytes. |
| Bno055.ReadVector | bno055.py:133-141 | The loop yields `count` values, each `lsb + 256*msb`, less 65536 when bit 15 is set. |
| Bno055.ScaledAxes | bno055.py:147-148 | All three scaled axes are present. Each times the scale is the raw 16-bit value, and each lies within the raw range divided by the scale. |
| Bno055.Acceleration | bno055.py:144-150 | The reading is complete exactly in ACCGYRO, AMG and NDOF mode, and otherwise `(None, None, None)`. Each axis is the raw value from 0x08.. divided by 100, within [-327.68, 327.67]. |
| Bno055.Gyroscope | bno055.py:153-158 | The same gating as `acceleration()`. Each axis is the raw value from 0x14.. divided by 16, within [-2048, 2047.9375]. |
| Bno055.Run | bno055.py:161-163 | Acceleration and angular rate are both numbers or both null, never mixed. They are numbers exactly in the motion modes ACCGYRO, AMG and NDOF. In CONFIG mode both are null. |
| Ds3231.BcdToDec | ds3231.py:29-30 | No register byte decodes above 85. |
| Ds3231.BcdToDecIsBitExpression | ds3231.py:29-30 | The decoding is the source's `((b & 0x70) >> 4) * 10 + (b & 0x0F)`: the tens digit from bits 4-6, the units from the low nibble. |
| Ds3231.MarkCentury | ds3231.py:48-49 | Setting the century flag leaves bit 7 set and every other bit as it was. |
| Ds3231.MarkCenturyIsBitOr | ds3231.py:48-49 | The arithmetic century marking equals the source's `bcd \| 0x80`. |
| Ds3231.DecToBcd | ds3231.py:44-50 | `_decToBcd(dec, is_month)` fits a byte exactly for 0 <= dec <= 159; otherwise it raises. The low nibble is `dec mod 10` and bits 4-6 the tens digit mod 8. Bit 7 is set exactly for a month or a value of 80 or more. |
| Ds3231.BcdIgnoresCenturyBit | ds3231.py:29-30 | Setting the century bit on a register byte does not change its decoded value. |
| Ds3231.BcdRoundTrip | ds3231.py:29-30 | For 0 <= d <= 79, decoding the encoding of d gives d, with or without the month flag. |
| Ds3231.BcdRoundTripBoundIsExact | ds3231.py:29-30 | For 80 <= d <= 159 the round trip gives d - 80, so 79 is the exact bound. |
| Ds3231.BcdEncodeDecode | ds3231.py:44-50 | Every byte with a valid units digit re-encodes to itself from its decoded value and century flag. |
| Ds3231.DecodeTime | ds3231.py:33-37 | The register map: seconds from 0x00, minutes from 0x01, hours from 0x02, the date from 0x04, the month from 0x05 with `& 0x1F` applied, and the year from 0x06 plus 2000. Weekday 0x03 is dropped. The year lies in 2000..2085, the month below 32, and the other fields at most 85. |
| Ds3231.StripCentury | ds3231.py:36 | The stripped month is below 32 and at most the original, and a month below 32 is unchanged. |
| Ds3231.StripCenturyIsMask | ds3231.py:36 | The stripped month equals the source's `m & 0x1F`. |
| Ds3231.DecodeIgnoresWeekday | ds3231.py:34-35 | The weekday register does not influence the decoded time. |
| Ds3231.MonthStripKeepsCalendarMonths | ds3231.py:35-36 | A month register decoding to 1..12 reports that month, whether or not its century bit is set. |
| Ds3231.FormatLayout | ds3231.py:39 | A renderable time formats to 19 characters: the zero-padded year, month, day, hour, minute and second at fixed positions, separated by '-', ' ' and ':'. |
| Ds3231.Format | ds3231.py:39 | The timestamp holds only digits and the separators '-', ' ' and ':'. It is at least 17 characters long, because each field is padded to two digits. |
| Ds3231.Parse | ds3231.py:39 | The inverse of the timestamp format succeeds exactly on strings of the timestamp's shape. |
| Ds3231.FormatRoundTrip | ds3231.py:39 | For a four-digit year and two-digit fields, the formatted string has the fixed shape and parses back to the same time. |
| Ds3231.Now | ds3231.py:27-39 | For any register contents, `now()` is 19 characters long. It has '-' at 4 and 7, ' ' at 10, ':' at 13 and 16, and digits elsewhere, and it parses back to the decoded registers. |
| Ds3231.WriteFields | ds3231.py:54-60 | The fields are encoded and written in order, stopping at the first encoding that raises. Every issued write carries its field's register and encoding, and no field is skipped. |
| Ds3231.Fields | ds3231.py:54-60 | `set_time` fills registers 0..6 in address order: seconds to 0x00, minutes to 0x01, hours to 0x02, weekday to 0x03, date to 0x04, month to 0x05 and the year value to 0x06. Only the month has the century flag. |
| Ds3231.SetTimeAsWritten | ds3231.py:52-60 | With the four-digit year passed unchanged, writes go to registers 0x00.. in order. The call completes exactly when every field, the year included, lies in 0..159. |
| Ds3231.SetTimeAsWrittenOverflows | ds3231.py:60 | Once the `self` and `bytes` defects listed under Left out are repaired, passing the four-digit year raises: six registers are written and the year register never is. |
| Ds3231.SmallEncoding | ds3231.py:44-50 | Every value from 0 to 79 encodes without raising, and its byte has bit 7 set exactly for a month. |
| Ds3231.StorableWrites | ds3231.py:54-60 | For a storable time, the seven encodings all succeed. Register `i` is written in turn `i`, and only the month write has bit 7 set. |
| Ds3231.SetTime | ds3231.py:52-60 | With the year as its offset from 2000, every storable time is written in full. The seven writes go to 0x00..0x06 in order, and only the month write has bit 7 set. |
| Ds3231.SetTimeThenNow | ds3231.py:37 | Setting a storable time and then reading the clock gives that time and its formatted timestamp. |
| Decimal.PadRoundTrip | ds3231.py:39 | `{n:02d}` reads back as `n`. |
| Decimal.PadWidth | ds3231.py:39 | `{n:02d}` is two characters for n < 100 and four for a four-digit n. |
| Scheduler.Millis | main.py:61-62 | `millis()` is the unique `ms` with `ms*10^6 <= ns < (ms+1)*10^6`. |
| Scheduler.MillisMonotone | main.py:61-62 | The millisecond clock is monotone in the nanosecond clock. |
| Scheduler.Sample | main.py:65-69 | A due tick appends exactly one row and keeps the earlier rows. The row holds the `datetime.now()` reading, the elapsed `due - t_start`, then the readings. It returns `due + interval`. A tick that is not due appends nothing and returns nothing. |
| Scheduler.LogImu | main.py:65-69 | `log_imu` is due exactly when `now >= t_imu`. It then appends one 4-field row, holding the `datetime.now()` reading, the elapsed time, and the IMU's acceleration and gyroscope, and returns `t_imu + 10`; otherwise it returns nothing and appends nothing. |
| Scheduler.LogGps | main.py:72-76 | `log_gps` behaves the same way with a 6-field row holding the `datetime.now()` reading, the elapsed time and the four GPS values, and returns `t_gps + 500`. |
| Scheduler.SampleAnchoredToDue | main.py:69 | Two ticks that are both due give the same result whatever the clock reads: the schedule is anchored to the due time, not to `now`. |
| Scheduler.Open | main.py:89-90 | A new channel is due at the start time and holds the header alone. It satisfies the drift-free invariant. |
| Scheduler.Step | main.py:112-113 | A due tick adds one sample and advances the due time by one interval. A tick that is not due leaves the channel unchanged. |
| Scheduler.StepKeepsDriftFree | main.py:66-69 | Ticks preserve the invariant: header first, the k-th sample has elapsed time `k*interval`, and the due time is `start + samples*interval`. |
| Scheduler.OneSamplePerTick | main.py:66-69 | Even with several intervals missed, a tick takes exactly one sample and the channel stays behind the clock. |
| Scheduler.ElapsedIncreasing | main.py:68 | In a drift-free channel the elapsed column strictly increases, so the values are pairwise distinct. |
| Scheduler.ImuStep | main.py:110-112 | An IMU tick that is due appends one 4-field row with the wall-clock reading, the elapsed time and `imu.run()`'s readings, keeps the earlier rows, and moves the due time by 10 ms. A tick that is not due leaves the channel unchanged. |
| Scheduler.GpsStep | main.py:111-113 | A GPS tick that is due appends one 6-field row with the wall-clock reading, the elapsed time and the four GPS values, keeps the earlier rows, and moves the due time by 500 ms. A tick that is not due leaves the channel unchanged. |
| Scheduler.LogFunctionsAreSteps | main.py:65-76 | `log_imu` and `log_gps` are the generic step with their own sensor readings. |
| Scheduler.Run | main.py:108-113 | A run of ticks only appends to the table: the earlier rows are kept, and at most one row is added per tick. When every tick reaches its slot of the schedule, each tick adds exactly one row and the run ends due at `due + n * interval`. |
| Scheduler.RunKeepsDriftFree | main.py:108-113 | Any sequence of ticks keeps the channel drift-free and takes at most one sample per tick. |
| Scheduler.RunNotAhead | main.py:66 | No sample is taken before its due time: the last sample's scheduled time never exceeds the clock. |
| Scheduler.SamplesBoundedByClock | main.py:88-90 | A channel whose clock never passed `limit` holds at most `(limit - start) / interval + 1` samples. |
| Scheduler.TickAsWritten | main.py:112-113 | As written, the loop stores the tick's return value. After a tick that is not due it holds `None`, and the next comparison raises. |
| Scheduler.RunAsWritten | main.py:108-113 | As written, a loop whose stored due time is `None` fails at its next pass. A loop whose every pass reaches its slot of the schedule ends due at `due + n * interval`. |
| Scheduler.AsWrittenRunAgreesWhenAllDue | main.py:108-113 | When every pass reaches its slot of the schedule, the as-written loop never stores `None` and ends due exactly where the corrected run does. |
| Scheduler.AsWrittenFailsAfterEarlyLoop | main.py:66 | A loop that comes back within 10 ms of the first IMU sample fails on its next pass. |
| Scheduler.AsWrittenAgreesWhenDue | main.py:112-113 | The corrected step and the as-written tick agree on every due tick. On a tick that is not due, the corrected step keeps the due time. |
| Session.Directory | main.py:93-99 | The USB directory is used exactly when it exists, and the local directory otherwise. |
| Session.LogName | main.py:94 | The log name is the chosen directory followed by the RTC timestamp. |
| Session.VideoName | main.py:95 | The video name is the directory and a timestamp, followed by `.mp4`. |
| Session.LogNameRoundTrip | main.py:93-99 | The log name determines which directory was chosen and which timestamp was used. |
| Session.LogNameCarriesTime | main.py:94 | The timestamp in a log name parses back to the time in the RTC registers. |
| Session.VideoMatchesLog | main.py:94-95 | The video name is the log name plus `.mp4` exactly when both RTC reads give the same timestamp. |
| Session.Start | main.py:83-106 | A session starts only from idle with the button pin low. It turns the LED on, opens the log named from the first RTC read, and starts the camera on the video named from the second. Both buffers are header-only (4 and 6 columns), both due at `t_start`. In every other case nothing happens. |
| Session.Advance | main.py:108-113 | One pass ticks both channels and preserves the session invariant. Each channel takes one sample exactly when its clock has reached its due time, and none otherwise. Earlier rows are kept. A sample's row is the wall-clock reading, the elapsed `due - t_start`, then `imu.run()`'s two readings or `gps.run()`'s four values. |
| Session.Iterate | main.py:108-127 | A pass records a frame. With the button pin low the session continues and emits nothing else. With the pin high it ends after: LED off, camera stopped, IMU table, "\n", GPS table, close. |
| Session.Loop | main.py:108-127 | The loop is still running exactly when the button pin was low on every pass. A running loop has emitted one effect per pass, and a stopped one has emitted at least seven, the last closing the log. |
| Session.ImuInputs | main.py:108-112 | The IMU channel's view of the loop: for each pass, the tick `log_imu` receives, which is that pass's IMU clock, its wall-clock reading and `imu.run()`'s readings. |
| Session.GpsInputs | main.py:108-113 | The GPS channel's view of the loop: for each pass, that pass's GPS clock, its wall-clock reading and `gps.run()`'s four values. |
| Session.AdvanceIsRunStep | main.py:108-113 | One pass of the loop is the first tick of each channel's run. Running the rest of the passes from the advanced session ends where running all of them from the current session does. |
| Session.HeldLoopEmitsNothing | main.py:108-118 | While the button pin stays low, the session stays active with its file and schedule intact, and emits only video frames. Each channel holds exactly the rows its own run over the passes has sampled. |
| Session.StopPass | main.py:115-127 | A single pass that sees the button pin high ends the session: one frame, then the stop sequence whose tables are the two channels after one tick each. |
| Session.StopWritesRuns | main.py:108-127 | A session whose button pin reads low on every pass but the last, and high on the last, ends idle. It records one frame per pass, then writes the stop sequence, and the two tables it writes are the rows of each channel's run over all the passes. |
| Session.StopWritesTables | main.py:108-127 | The tables written at the stop are the channels' runs over all the passes. Each has its header and its drift-free schedule, extends the rows the session started with, and gains at most one row per pass. |
| Session.SetupYieldsReadings | main.py:18-20 | After successful initialisation, switching to ACCGYRO succeeds, and both IMU readings are then numbers. |

## Left out

- I²C transactions are modelled as a register snapshot plus a write trace. Bus timing and errors are not modelled.
- `time.sleep` delays are not modelled (bno055.py:99 and 130).
- The `OSError` swallowed while the chip resets is not modelled (bno055.py:93-97). The reset write is recorded as issued.
- The BNO055 keeps ACC_CONFIG and the GYR_CONFIG registers on register page 1, and the driver writes them without selecting a page. The model records the writes as issued; it does not model register pages.
- The DS3231 constructor's write of 0x18 to the control register (ds3231.py:21-24) is not modelled. It only enables the square-wave output.
- `set_time`'s `time.localtime()` default is not modelled; `Ds3231.SetTime` takes the time tuple as a parameter.
- `ProcessPoolExecutor` (main.py:109-113) is not modelled. The two ticks run in sequence, IMU first. A child process's appends to a buffer would never reach the parent. The model keeps them in the session's buffers, because main.py:122-126 writes those buffers out as the session's tables.
- Button debounce belongs to the GPIO library (main.py:131-132).
- The blue-LED fix indicator loop and the `KeyboardInterrupt` teardown are not modelled (main.py:135-150).
- `gps.py` is not part of this model. Its readings enter as an opaque four-string `GpsFix`, with `NO_FIX` as its no-fix value. With a fix, `gps.run()` returns latitude and longitude as six-decimal strings and the receiver's altitude as it comes (gps.py:38-44). The speed is a number, or the string '0' when the receiver reports no speed (gps.py:37-44). The model takes all four values as opaque strings.
- `pi_camera.py` is not part of this model. Camera actions appear only as effects.
- `usb.py` is not part of this model.
- `tabulate` rendering is not modelled. A table appears as the buffer it is rendered from.
- `datetime.now()` is modelled as an opaque integer timestamp.
- Bno055.Acceleration: the division is exact real division, not IEEE double rounding.
- Bno055.Gyroscope: the division is exact real division, not IEEE double rounding.
- Ds3231.SetTime: its contract covers storable times only. Years 2000-2079 are storable. For 2080-2099 the year's tens digit sets bit 7 of the year register. `_bcdToDec` masks every register with 0x70 (ds3231.py:30), so that bit is lost and the year reads back 80 short (`BcdRoundTripBoundIsExact`).
- Defects kept out of the model, which follows the evident intent:
  - `_decToBcd` declares a spurious `self` parameter (ds3231.py:44), so `_decToBcd(S)` binds `S` to `self` and the call fails for the missing `dec`.
  - It also returns `bytes` where `write_byte_data` expects an integer (ds3231.py:50).
  - `set_time` unpacks eight names from the nine fields of `time.localtime()` (ds3231.py:52).
  - `executor.submit` omits the `data` argument of `log_imu` and `log_gps` (main.py:110-111).
  - The model passes every argument and writes the byte's integer value.
- Failures of the session's file and camera calls are not modelled. These are `open` (main.py:102), `Pi_Camera(...)` (main.py:106), `cam.record()` (main.py:115), and `file.write` and `file.close` (main.py:122-127). Every `Session.Effect` is taken to succeed. In the source, `toggle_state` is already `True` when they run (main.py:85), so an exception from them would leave a logger that never starts again. One plausible cause is the ':' in the timestamp file name on a FAT-formatted USB drive. That is not established here.

## Findings

| source | as written | input that shows it | evidently intended | confidence | as-written member | corrected member |
|---|---|---|---|---|---|---|
| ds3231.py:60 | `_decToBcd(Y)` is given the four-digit year, and any value from 160 on overflows one byte | any year from 2000 on, e.g. 2024: 202 tens shifted left by 4 exceeds 255. Once the spurious `self` parameter and the `bytes` return (ds3231.py:44 and 50) are repaired, `set_time` raises after writing six registers. As the code stands, `_decToBcd(S)` raises `TypeError` at ds3231.py:54 before any write. | write `Y - 2000`, the counterpart of `Y += 2000` in `now()` | high; not executed | Ds3231.SetTimeAsWrittenOverflows | Ds3231.SetTimeThenNow |
| main.py:112-113 | the loop assigns each tick's return value to the due time, and a tick that is not due returns `None` | a pass that comes round within 10 ms of the last IMU sample: `t_imu` becomes `None`, and the next `millis() >= t_imu` raises `TypeError`. This requires the missing `data` argument at main.py:110-111 to be supplied. As the code stands, `f1.result()` raises on the first pass. | keep the previous due time when nothing was due | high; not executed | Scheduler.AsWrittenFailsAfterEarlyLoop | Scheduler.StepKeepsDriftFree |

=== FILE: bits.dfy ===
/** Python's bitwise operators on non-negative integers, defined bit by bit,
    with the identities the drivers rely on: masking with 2^k - 1 keeps the
    low k bits, a shifted mask selects a shifted field, and OR-ing values
    whose set bits do not overlap adds them. */
module Bits {

  function Pow2(k: nat): (p: nat)
    ensures p >= 1
  {
    if k == 0 then 1 else 2 * Pow2(k - 1)
  }

  /** `a & b`. */
  function And(a: nat, b: nat): nat
    decreases a
  {
    if a == 0 || b == 0 then 0
    else 2 * And(a / 2, b / 2) + (if a % 2 == 1 && b % 2 == 1 then 1 else 0)
  }

  /** `a | b`. */
  function Or(a: nat, b: nat): nat
    decreases a + b
  {
    if a == 0 then b
    else if b == 0 then a
    else 2 * Or(a / 2, b / 2) + (if a % 2 == 1 || b % 2 == 1 then 1 else 0)
  }

  /** `a << k`. */
  function Shl(a: nat, k: nat): nat {
    a * Pow2(k)
  }

  /** `a >> k`: `k` halvings. */
  function Shr(a: nat, k: nat): nat
    decreases k
  {
    if k == 0 then a else Shr(a / 2, k - 1)
  }

  /** Bit `k` of `a`, i.e. `a & (1 << k) != 0`. */
  predicate Bit(a: nat, k: nat) {
    Shr(a, k) % 2 == 1
  }

  /** Halving then dividing by 2^(k-1) divides by 2^k. */
  lemma DivPow2Step(a: nat, k: nat)
    requires k > 0
    ensures (a / 2) / Pow2(k - 1) == a / Pow2(k)
  {
    var p := Pow2(k - 1);
    var q := (a / 2) / p;
    var r := (a / 2) % p;
    assert a / 2 == q * p + r;
    assert a == 2 * (q * p + r) + a % 2;
    assert a == q * (2 * p) + (2 * r + a % 2);
    assert 0 <= 2 * r + a % 2 < 2 * p;
    DivUnique(a, 2 * p, q, 2 * r + a % 2);
  }

  /** The remainder modulo 2^k is built from the halved remainder. */
  lemma ModPow2Step(a: nat, k: nat)
    requires k > 0
    ensures a % Pow2(k) == 2 * ((a / 2) % Pow2(k - 1)) + a % 2
  {
    var p := Pow2(k - 1);
    var q := (a / 2) / p;
    var r := (a / 2) % p;
    assert a == q * (2 * p) + (2 * r + a % 2);
    DivUnique(a, 2 * p, q, 2 * r + a % 2);
  }

  /** Shifting right by k divides by 2^k. */
  lemma {:induction false} ShrIsDiv(a: nat, k: nat)
    ensures Shr(a, k) == a / Pow2(k)
    decreases k
  {
    if k > 0 {
      ShrIsDiv(a / 2, k - 1);
      DivPow2Step(a, k);
    }
  }

  lemma DivUnique(a: int, d: int, q: int, r: int)
    requires d > 0 && 0 <= r < d && a == q * d + r
    ensures a / d == q && a % d == r
  {
    var q', r' := a / d, a % d;
    assert q' * d - q * d == (q' - q) * d;
    if q' > q {
      MulAtLeast(q' - q, d);
    } else if q' < q {
      MulAtLeast(q - q', d);
    }
  }

  lemma ModSmall(a: nat, m: nat)
    requires a < m
    ensures a % m == a
  {
    DivUnique(a, m, 0, a);
  }

  lemma MulAtLeast(e: int, d: int)
    requires e >= 1 && d > 0
    ensures e * d >= d
  {
    assert e * d == (e - 1) * d + d;
  }

  /** Masking with 2^k - 1 keeps the low k bits. */
  lemma {:induction false} AndLowMask(a: nat, k: nat)
    ensures And(a, Pow2(k) - 1) == a % Pow2(k)
    decreases k
  {
    if k > 0 {
      var p := Pow2(k - 1);
      assert Pow2(k) - 1 == 2 * (p - 1) + 1;
      AndOddMask(a, p - 1);
      AndLowMask(a / 2, k - 1);
      ModPow2Step(a, k);
    }
  }

  /** An odd mask keeps bit 0 of `a` and selects the rest shifted by one. */
  lemma AndOddMask(a: nat, m: nat)
    ensures And(a, 2 * m + 1) == 2 * And(a / 2, m) + a % 2
  {
    if a != 0 {
      assert (2 * m + 1) % 2 == 1 && (2 * m + 1) / 2 == m;
    }
  }

  /** An even mask selects the same bits of `a` shifted right by one. */
  lemma AndEvenMask(a: nat, m: nat)
    ensures And(a, 2 * m) == 2 * And(a / 2, m)
  {
    if a != 0 && m != 0 {
      assert (2 * m) % 2 == 0 && (2 * m) / 2 == m;
    }
  }

  /** `a & 0x70` is bits 4-6 of `a`, in place. */
  lemma AndHighNibble(a: nat)
    ensures And(a, 0x70) == 16 * ((a / 16) % 8)
  {
    var a1 := a / 2;
    var a2 := a1 / 2;
    var a3 := a2 / 2;
    var a4 := a3 / 2;
    AndEvenMask(a, 0x38);
    AndEvenMask(a1, 0x1C);
    AndEvenMask(a2, 0x0E);
    AndEvenMask(a3, 0x07);
    assert And(a, 0x70) == 16 * And(a4, 0x07);
    assert Pow2(3) == 8;
    AndLowMask(a4, 3);
    FourHalvings(a);
  }

  /** Four halvings divide by 16. */
  lemma FourHalvings(a: nat)
    ensures a / 2 / 2 / 2 / 2 == a / 16
  {
    var a4 := a / 2 / 2 / 2 / 2;
    DivUnique(a, 16, a4, a - 16 * a4);
  }

  /** Testing bit k with `& (1 << k)`. */
  lemma {:induction false} AndPow2(a: nat, k: nat)
    ensures And(a, Pow2(k)) == (if Bit(a, k) then Pow2(k) else 0)
    decreases k
  {
    if k == 0 {
      assert Shr(a, 0) == a;
    } else {
      var p := Pow2(k - 1);
      assert Pow2(k) == 2 * p;
      AndEvenMask(a, p);
      AndPow2(a / 2, k - 1);
      assert Bit(a / 2, k - 1) == Bit(a, k);
    }
  }

  /** OR-ing a value shifted left by k with one below 2^k adds them. */
  lemma {:induction false} OrDisjoint(a: nat, b: nat, k: nat)
    requires b < Pow2(k)
    ensures Or(a * Pow2(k), b) == a * Pow2(k) + b
    decreases k
  {
    if k > 0 && a != 0 && b != 0 {
      var ak := a * Pow2(k - 1);
      assert a * Pow2(k) == 2 * ak;
      OrDisjoint(a, b / 2, k - 1);
    }
  }

  /** Setting bit k with `| (1 << k)` adds 2^k exactly when that bit was clear. */
  lemma {:induction false} OrPow2(a: nat, k: nat)
    ensures Or(a, Pow2(k)) == a + (if Bit(a, k) then 0 else Pow2(k))
    decreases k
  {
    if k == 0 {
      assert Shr(a, 0) == a;
    } else if a == 0 {
      assert Shr(a / 2, k - 1) == Shr(a, k);
      OrPow2(a / 2, k - 1);
    } else {
      var p := Pow2(k - 1);
      assert Pow2(k) == 2 * p;
      assert Or(a, 2 * p) == 2 * Or(a / 2, p) + a % 2;
      OrPow2(a / 2, k - 1);
      assert Bit(a / 2, k - 1) == Bit(a, k);
    }
  }

  /** The powers of two behind the literal masks of the drivers. */
  lemma Pow2Values()
    ensures Pow2(4) == 16 && Pow2(5) == 32 && Pow2(7) == 128
    ensures Pow2(8) == 256 && Pow2(15) == 0x8000 && Pow2(16) == 0x10000
  {
  }

  /** `a & 0x0F` keeps the low nibble. */
  lemma LowNibble(a: nat)
    ensures And(a, 0x0F) == a % 16
  {
    Pow2Values();
    AndLowMask(a, 4);
  }

  /** `a & 0x1F` keeps the low 5 bits. */
  lemma Low5Bits(a: nat)
    ensures And(a, 0x1F) == a % 32
  {
    Pow2Values();
    AndLowMask(a, 5);
  }

  /** `a & 0xFF` keeps the low byte. */
  lemma LowByte(a: nat)
    ensures And(a, 0xFF) == a % 256
  {
    Pow2Values();
    AndLowMask(a, 8);
  }

  /** `a & 0xFFFF` keeps the low 16 bits. */
  lemma Low16Bits(a: nat)
    ensures And(a, 0xFFFF) == a % 0x10000
  {
    Pow2Values();
    AndLowMask(a, 16);
  }

  /** `a & 0x8000` is non-zero exactly when bit 15 is set. */
  lemma SignBitMask(a: nat)
    ensures And(a, 0x8000) != 0 <==> (a / 0x8000) % 2 == 1
  {
    Pow2Values();
    AndPow2(a, 15);
    ShrIsDiv(a, 15);
  }

  /** `a | 0x80` adds 128 exactly when bit 7 is clear. */
  lemma CenturyBitOr(a: nat)
    ensures Or(a, 0x80) == a + (if (a / 128) % 2 == 1 then 0 else 128)
  {
    Pow2Values();
    OrPow2(a, 7);
    ShrIsDiv(a, 7);
  }

  /** Bit 7 is set exactly when the low byte is at least 128. */
  lemma Bit7(a: nat)
    ensures (a / 128) % 2 == 1 <==> a % 256 >= 128
  {
    var q, r := a / 256, a % 256;
    DivUnique(a, 128, 2 * q + r / 128, r % 128);
    assert r / 128 == (if r >= 128 then 1 else 0);
  }

  /** `(hi << 8) | lo` with `lo` a byte is `hi * 256 + lo`. */
  lemma JoinBytes(hi: nat, lo: nat)
    requires lo < 256
    ensures Or(Shl(hi, 8), lo) == hi * 256 + lo
  {
    Pow2Values();
    OrDisjoint(hi, lo, 8);
  }

  /** Masking a byte with 0xFF changes nothing. */
  lemma ByteMaskKeepsByte(a: nat)
    requires a < 256
    ensures And(a, 0xFF) == a
  {
    LowByte(a);
    ModSmall(a, 256);
  }

  /** Masking a 16-bit value with 0xFFFF changes nothing. */
  lemma WordMaskKeepsWord(a: nat)
    requires a < 0x10000
    ensures And(a, 0xFFFF) == a
  {
    Low16Bits(a);
    ModSmall(a, 0x10000);
  }
}

=== FILE: bno055.dfy ===
/** The BNO055 inertial measurement unit driver: operating-mode validation,
    the register writes of initialisation, little-endian two's-complement
    vector decoding and the mode-gated accelerometer and gyroscope reads. */
module Bno055 {
  import opened Options
  import opened Bus
  import Bits

  // I2C addresses and identity.
  const I2C_ADDR_1: Byte := 0x28
  const I2C_ADDR_2: Byte := 0x29
  const BNO055_ID: Byte := 0xA0

  // Register addresses.
  const CHIP_ID: Byte := 0x00
  const ACC_DATA_X_LSB: Byte := 0x08
  const GYR_DATA_X_LSB: Byte := 0x14
  const UNIT_SEL: Byte := 0x3B
  const OPR_MODE: Byte := 0x3D
  const PWR_MODE: Byte := 0x3E
  const SYS_TRIGGER: Byte := 0x3F
  const AXIS_MAP_SIGN: Byte := 0x42
  const ACC_CONFIG: Byte := 0x08
  const GYR_CONFIG_0: Byte := 0x0A
  const GYR_CONFIG_1: Byte := 0x0B

  // Register values.
  const ACCEL_2G: Byte := 0x00
  const ACCEL_7_81HZ: Byte := 0x00
  const ACCEL_NORMAL: Byte := 0x00
  const GYR_500DPS: Byte := 0x18
  const GYR_32HZ: Byte := 0x38
  const GYR_NORMAL: Byte := 0x00
  const NORMAL_POWER: Byte := 0x00
  /** Written to SYS_TRIGGER by `_reset`: the reset command bit. */
  const RESET_SYSTEM: Byte := 0x20

  // Operating modes.
  const CONFIG: Byte := 0x00
  const ACCGYRO: Byte := 0x05
  const AMG: Byte := 0x07
  const NDOF: Byte := 0x0C

  /** The closed set of modes `mode()` accepts. */
  predicate ValidMode(m: int) {
    m == CONFIG || m == ACCGYRO || m == AMG || m == NDOF
  }

  /** The modes in which the accelerometer and gyroscope are read. */
  predicate MotionMode(m: int) {
    m == ACCGYRO || m == AMG || m == NDOF
  }

  /** The driver object: its bus address and the last mode it set (`_mode`). */
  datatype Imu = Imu(address: Byte, mode: Byte)

  /** `mode()` raises `ValueError`; `__init__` raises `RuntimeError` when the
      chip identity register does not read 0xA0. */
  datatype ImuError = InvalidMode(requested: int) | NoResponse(chipId: Byte)

  /** What a driver call wrote on the bus, and what it returned or raised. */
  datatype Outcome<+T> = Outcome(result: Result<T, ImuError>, writes: seq<Write>)

  /* ------------------------------------------------------------ modes */

  /** The value of the last write to OPR_MODE in `ws`, if any: the mode the
      chip was last told to enter. */
  function LastMode(ws: seq<Write>): Option<Byte>
    decreases |ws|
  {
    if ws == [] then None
    else if ws[|ws| - 1].reg == OPR_MODE then Some(ws[|ws| - 1].value)
    else LastMode(ws[..|ws| - 1])
  }

  /** The driver's `_mode` agrees with the mode last written to the chip. */
  predicate Tracks(imu: Imu, ws: seq<Write>) {
    LastMode(ws) == Some(imu.mode)
  }

  /** `mode(m)`: a value outside the four operating modes raises before
      `_mode` changes or anything is written; a valid one sets `_mode` and
      issues exactly one write of `m` to OPR_MODE. */
  function SetMode(imu: Imu, m: int): (r: Outcome<Imu>)
    ensures r.result.Success? <==> ValidMode(m)
    ensures !ValidMode(m) ==> r.result == Failure(InvalidMode(m)) && r.writes == []
    ensures ValidMode(m) ==> r.result.value == imu.(mode := m) && r.writes == [Write(OPR_MODE, m)]
  {
    if !ValidMode(m) then Outcome(Failure(InvalidMode(m)), [])
    else Outcome(Success(imu.(mode := m)), [Write(OPR_MODE, m)])
  }

  /** `mode()` keeps `_mode` in step with the chip: after any call, valid
      or not, the driver's mode is the last mode written. */
  lemma SetModeKeepsTracking(imu: Imu, ws: seq<Write>, m: int)
    requires Tracks(imu, ws)
    ensures var r := SetMode(imu, m);
            Tracks(if r.result.Success? then r.result.value else imu, ws + r.writes)
  {
    var r := SetMode(imu, m);
    if r.result.Failure? {
      assert ws + r.writes == ws;
    }
  }

  /* ------------------------------------------------------------ configuration */

  /** The sign of one axis in AXIS_MAP_SIGN. */
  datatype AxisSign = Positive | Negative {
    /** AXIS_REMAP_POSITIVE (0x00) or AXIS_REMAP_NEGATIVE (0x01). */
    function Code(): nat {
      match this
      case Positive => 0
      case Negative => 1
    }
  }

  /** `_set_axis` packing: `(x << 2) | (y << 1) | z`, so x lands on bit 2,
      y on bit 1 and z on bit 0. */
  function AxisSignValue(x: AxisSign, y: AxisSign, z: AxisSign): (v: Byte)
    ensures v == 4 * x.Code() + 2 * y.Code() + z.Code()
  {
    var xs, ys, zs := x.Code(), y.Code(), z.Code();
    assert Bits.Pow2(1) == 2 && Bits.Pow2(2) == 4;
    Bits.OrDisjoint(xs, 2 * ys, 2);
    assert 4 * xs + 2 * ys == (2 * xs + ys) * Bits.Pow2(1);
    Bits.OrDisjoint(2 * xs + ys, zs, 1);
    Bits.Or(Bits.Or(Bits.Shl(xs, 2), Bits.Shl(ys, 1)), zs)
  }

  /** The sign bit `k` of an AXIS_MAP_SIGN value encodes. */
  function SignAt(v: Byte, k: nat): AxisSign {
    if Bits.Bit(v, k) then Negative else Positive
  }

  /** Reading bits 2, 1 and 0 back out of the packed value recovers the
      three signs. */
  lemma AxisSignRoundTrip(x: AxisSign, y: AxisSign, z: AxisSign)
    ensures SignAt(AxisSignValue(x, y, z), 2) == x
    ensures SignAt(AxisSignValue(x, y, z), 1) == y
    ensures SignAt(AxisSignValue(x, y, z), 0) == z
  {
    var v := AxisSignValue(x, y, z);
    LowBits(v);
    assert v / 4 == x.Code() && (v / 2) % 2 == y.Code() && v % 2 == z.Code();
  }

  /** Every value below 8 is the packing of its own bits 2, 1 and 0. */
  lemma AxisSignValuesCoverBits(v: Byte)
    requires v < 8
    ensures AxisSignValue(SignAt(v, 2), SignAt(v, 1), SignAt(v, 0)) == v
  {
    LowBits(v);
    assert v == 4 * ((v / 4) % 2) + 2 * ((v / 2) % 2) + v % 2;
  }

  /** Bits 0, 1 and 2 of a value as shifts. */
  lemma LowBits(v: nat)
    ensures Bits.Shr(v, 0) == v
    ensures Bits.Shr(v, 1) == v / 2
    ensures Bits.Shr(v, 2) == v / 2 / 2 == v / 4
  {
    assert Bits.Shr(v, 1) == Bits.Shr(v / 2, 0);
    assert Bits.Shr(v, 2) == Bits.Shr(v / 2, 1) == Bits.Shr(v / 2 / 2, 0);
  }

  /** `_set_axis(x_sign, y_sign, z_sign)`: one write to AXIS_MAP_SIGN whose
      value holds nothing but the three signs, each on its own bit. */
  function SetAxis(x: AxisSign, y: AxisSign, z: AxisSign): (ws: seq<Write>)
    ensures |ws| == 1 && ws[0].reg == AXIS_MAP_SIGN && ws[0].value < 8
    ensures SignAt(ws[0].value, 2) == x && SignAt(ws[0].value, 1) == y && SignAt(ws[0].value, 0) == z
  {
    AxisSignRoundTrip(x, y, z);
    [Write(AXIS_MAP_SIGN, AxisSignValue(x, y, z))]
  }

  /** With its default arguments (x and y negative, z positive) `_set_axis`
      writes 0x06. */
  lemma DefaultAxisSigns()
    ensures SetAxis(Negative, Negative, Positive) == [Write(0x42, 0x06)]
  {
  }

  /** `_set_acc`: normal operation, 7.81 Hz bandwidth, 2 g range, which all
      encode as zero. */
  function SetAcc(): (ws: seq<Write>)
    ensures ws == [Write(0x08, 0x00)]
  {
    [Write(ACC_CONFIG, ACCEL_NORMAL + ACCEL_7_81HZ + ACCEL_2G)]
  }

  /** `_set_gyr`: 32 Hz bandwidth with 500 dps range, then normal operation. */
  function SetGyr(): (ws: seq<Write>)
    ensures ws == [Write(0x0A, 0x50), Write(0x0B, 0x00)]
  {
    [Write(GYR_CONFIG_0, GYR_32HZ + GYR_500DPS), Write(GYR_CONFIG_1, GYR_NORMAL)]
  }

  /** `_reset`: back to CONFIG mode, then the reset command. The chip drops
      off the bus while resetting; the source swallows the resulting error,
      so the write is recorded as issued. */
  function Reset(imu: Imu): (r: Outcome<Imu>)
    ensures r.result == Success(imu.(mode := CONFIG))
    ensures r.writes == [Write(OPR_MODE, CONFIG), Write(SYS_TRIGGER, RESET_SYSTEM)]
  {
    var config := SetMode(imu, CONFIG);
    Outcome(config.result, config.writes + [Write(SYS_TRIGGER, RESET_SYSTEM)])
  }

  /** `__init__(bus, address, units)`. The chip identity is read after the
      first switch to CONFIG; a mismatch raises with that single write issued.
      Otherwise the chip is reset and configured and left in NDOF mode, and
      the whole register sequence is fixed but for the unit selection. */
  function Initialize(address: Byte, regs: RegisterFile, units: Byte): (r: Outcome<Imu>)
    ensures r.result.Failure? <==> regs[CHIP_ID] != BNO055_ID
    ensures r.result.Failure? ==> r.result.error == NoResponse(regs[CHIP_ID])
                                  && r.writes == [Write(OPR_MODE, CONFIG)]
    ensures r.result.Success? ==> r.result.value == Imu(address, NDOF)
    ensures r.result.Success? ==> r.writes == [
              Write(0x3D, 0x00), Write(0x3D, 0x00), Write(0x3F, 0x20), Write(0x3E, 0x00),
              Write(0x3B, units), Write(0x42, 0x06), Write(0x08, 0x00), Write(0x0A, 0x50),
              Write(0x0B, 0x00), Write(0x3D, 0x0C)]
    ensures r.result.Success? ==> Tracks(r.result.value, r.writes)
  {
    var config := SetMode(Imu(address, CONFIG), CONFIG);
    var chipId := regs[CHIP_ID];
    if chipId != BNO055_ID then
      Outcome(Failure(NoResponse(chipId)), config.writes)
    else
      var reset := Reset(config.result.value);
      var setup := [Write(PWR_MODE, NORMAL_POWER), Write(UNIT_SEL, units)]
                   + SetAxis(Negative, Negative, Positive) + SetAcc() + SetGyr();
      var ndof := SetMode(reset.result.value, NDOF);
      Outcome(ndof.result, config.writes + reset.writes + setup + ndof.writes)
  }

  /* ------------------------------------------------------------ vectors */

  /** One axis of `_read_vector`: the little-endian two's-complement 16-bit
      integer held in two bytes. */
  function Decode16(lsb: Byte, msb: Byte): (v: int)
    ensures -0x8000 <= v < 0x8000
    ensures msb < 128 <==> v >= 0
  {
    var word := lsb as int + 256 * (msb as int);
    if word >= 0x8000 then word - 0x10000 else word
  }

  /** `Decode16` computes exactly the source's expression
      `((msb & 0xFF) << 8 | (lsb & 0xFF)) & 0xFFFF`, less 0x10000 when
      `word & 0x8000` is set. */
  lemma Decode16IsBitExpression(lsb: Byte, msb: Byte)
    ensures var word := Bits.And(Bits.Or(Bits.Shl(Bits.And(msb, 0xFF), 8), Bits.And(lsb, 0xFF)), 0xFFFF);
            Decode16(lsb, msb) == if Bits.And(word, 0x8000) != 0 then word - 0x10000 else word
  {
    WordOfBytes(lsb, msb);
    SignBitOfWord(lsb as int + 256 * (msb as int));
  }

  /** In a 16-bit word, `& 0x8000` tests for a value of 0x8000 or more. */
  lemma SignBitOfWord(w: nat)
    requires w < 0x10000
    ensures Bits.And(w, 0x8000) != 0 <==> w >= 0x8000
  {
    Bits.SignBitMask(w);
    Bits.DivUnique(w, 0x8000, if w >= 0x8000 then 1 else 0, if w >= 0x8000 then w - 0x8000 else w);
  }

  /** The unsigned word is the little-endian combination of the two bytes. */
  lemma WordOfBytes(lsb: Byte, msb: Byte)
    ensures Bits.And(Bits.Or(Bits.Shl(Bits.And(msb, 0xFF), 8), Bits.And(lsb, 0xFF)), 0xFFFF)
            == lsb as int + 256 * (msb as int)
  {
    JoinMaskedBytes(lsb, msb);
    Bits.WordMaskKeepsWord(lsb as int + 256 * (msb as int));
  }

  lemma JoinMaskedBytes(lsb: Byte, msb: Byte)
    ensures Bits.Or(Bits.Shl(Bits.And(msb, 0xFF), 8), Bits.And(lsb, 0xFF)) == lsb as int + 256 * (msb as int)
  {
    Bits.ByteMaskKeepsByte(msb);
    Bits.ByteMaskKeepsByte(lsb);
    Bits.JoinBytes(msb, lsb);
  }

  /** How the chip lays a signed 16-bit value out on the bus: low byte first,
      two's complement. */
  function Encode16(v: int): (bytes: (Byte, Byte))
    requires -0x8000 <= v < 0x8000
  {
    var u := v % 0x10000;
    (u % 256, u / 256)
  }

  /** Decoding inverts the chip's encoding on every 16-bit value. */
  lemma Int16RoundTrip(v: int)
    requires -0x8000 <= v < 0x8000
    ensures Decode16(Encode16(v).0, Encode16(v).1) == v
  {
    var u := v % 0x10000;
    assert u == (if v < 0 then v + 0x10000 else v);
    Bits.DivUnique(u, 256, u / 256, u % 256);
  }

  /** Encoding inverts decoding on every pair of bytes. */
  lemma BytesRoundTrip(lsb: Byte, msb: Byte)
    ensures Encode16(Decode16(lsb, msb)) == (lsb, msb)
  {
    var d := Decode16(lsb, msb);
    var w := lsb as int + 256 * (msb as int);
    Bits.DivUnique(d, 0x10000, if msb >= 128 then -1 else 0, w);
    Bits.DivUnique(w, 256, msb, lsb);
  }

  /** The values `_read_vector(reg, count)` returns for the `2 * count`
      bytes the bus delivered. */
  function Vector(data: seq<Byte>, count: nat): (r: seq<int>)
    requires |data| == 2 * count
    ensures |r| == count
    ensures forall i :: 0 <= i < count ==> -0x8000 <= r[i] < 0x8000
    ensures forall i :: 0 <= i < count ==> Encode16(r[i]) == (data[2 * i], data[2 * i + 1])
  {
    forall i | 0 <= i < count
      ensures Encode16(Decode16(data[2 * i], data[2 * i + 1])) == (data[2 * i], data[2 * i + 1])
    {
      BytesRoundTrip(data[2 * i], data[2 * i + 1]);
    }
    seq(count, i requires 0 <= i < count => Decode16(data[2 * i], data[2 * i + 1]))
  }

  /** `_read_vector(reg, count)`: the loop over the `count * 2` bytes read
      from `reg`, producing exactly `count` signed 16-bit values. */
  method ReadVector(data: seq<Byte>, count: nat) returns (result: seq<int>)
    requires |data| == 2 * count
    ensures |result| == count
    ensures forall i :: 0 <= i < count ==>
              result[i] == data[2 * i] as int + 256 * (data[2 * i + 1] as int)
                           - (if data[2 * i + 1] >= 128 then 0x10000 else 0)
    ensures result == Vector(data, count)
  {
    result := seq(count, _ => 0);
    for i := 0 to count
      invariant |result| == count
      invariant forall j :: 0 <= j < i ==> result[j] == Decode16(data[2 * j], data[2 * j + 1])
    {
      result := result[i := Decode16(data[2 * i], data[2 * i + 1])];
    }
  }

  /* ------------------------------------------------------------ readings */

  /** A reading of three axes; `None` is Python's `None`. */
  datatype Vec3 = Vec3(x: Option<real>, y: Option<real>, z: Option<real>)

  /** `(None, None, None)`, returned outside the motion modes. */
  const NULL_TRIPLET: Vec3 := Vec3(None, None, None)

  predicate Complete(v: Vec3) {
    v.x.Some? && v.y.Some? && v.z.Some?
  }

  /** Axis `i` (0 = x, 1 = y, 2 = z). */
  function Axis(v: Vec3, i: nat): Option<real>
    requires i < 3
  {
    if i == 0 then v.x else if i == 1 then v.y else v.z
  }

  /** Three raw axis values divided by the unit's scale. */
  function Scaled(raw: seq<int>, scale: real): Vec3
    requires |raw| == 3 && scale != 0.0
  {
    Vec3(Some(raw[0] as real / scale), Some(raw[1] as real / scale), Some(raw[2] as real / scale))
  }

  /** Counts per m/s^2 and per degree per second in the default units. */
  const ACC_SCALE: real := 100.0
  const GYR_SCALE: real := 16.0

  /** The three axes decoded from six bytes and divided by `scale`: all
      present, each `scale` times smaller than its raw 16-bit value. */
  lemma ScaledAxes(data: seq<Byte>, scale: real)
    requires |data| == 6 && (scale == ACC_SCALE || scale == GYR_SCALE)
    ensures Complete(Scaled(Vector(data, 3), scale))
    ensures forall i :: 0 <= i < 3 ==>
              && Axis(Scaled(Vector(data, 3), scale), i).value * scale == Decode16(data[2 * i], data[2 * i + 1]) as real
              && -32768.0 / scale <= Axis(Scaled(Vector(data, 3), scale), i).value <= 32767.0 / scale
  {
    var raw := Vector(data, 3);
    var v := Scaled(raw, scale);
    assert Complete(v);
    forall i | 0 <= i < 3
      ensures Axis(v, i).value * scale == Decode16(data[2 * i], data[2 * i + 1]) as real
      ensures -32768.0 / scale <= Axis(v, i).value <= 32767.0 / scale
    {
      assert Axis(v, i).value == raw[i] as real / scale;
      assert raw[i] == Decode16(data[2 * i], data[2 * i + 1]);
      DivideBounds(raw[i], scale);
    }
  }

  lemma DivideBounds(x: int, scale: real)
    requires -0x8000 <= x < 0x8000 && (scale == ACC_SCALE || scale == GYR_SCALE)
    ensures -32768.0 / scale <= x as real / scale <= 32767.0 / scale
    ensures (x as real / scale) * scale == x as real
  {
    if scale == ACC_SCALE {
      assert x as real / 100.0 == x as real * 0.01;
    } else {
      assert x as real / 16.0 == x as real * 0.0625;
    }
  }

  /** `acceleration()`: in ACCGYRO, AMG or NDOF mode, three axes read from
      ACC_DATA_X_LSB in m/s^2 (raw / 100); in CONFIG mode the null triplet.
      Never a mix of numbers and `None`. */
  function Acceleration(imu: Imu, regs: RegisterFile): (v: Vec3)
    ensures MotionMode(imu.mode) <==> Complete(v)
    ensures !MotionMode(imu.mode) ==> v == NULL_TRIPLET
    ensures Complete(v) ==> forall i :: 0 <= i < 3 ==>
              && Axis(v, i).value * ACC_SCALE
                 == Decode16(regs[ACC_DATA_X_LSB + 2 * i], regs[ACC_DATA_X_LSB + 2 * i + 1]) as real
              && -327.68 <= Axis(v, i).value <= 327.67
  {
    if MotionMode(imu.mode) then
      var data := BlockRead(regs, ACC_DATA_X_LSB, 6);
      ScaledAxes(data, ACC_SCALE);
      Scaled(Vector(data, 3), ACC_SCALE)
    else NULL_TRIPLET
  }

  /** `gyroscope()`: gated on the same modes as `acceleration()`, three axes
      read from GYR_DATA_X_LSB in degrees per second (raw / 16). */
  function Gyroscope(imu: Imu, regs: RegisterFile): (v: Vec3)
    ensures MotionMode(imu.mode) <==> Complete(v)
    ensures !MotionMode(imu.mode) ==> v == NULL_TRIPLET
    ensures Complete(v) ==> forall i :: 0 <= i < 3 ==>
              && Axis(v, i).value * GYR_SCALE
                 == Decode16(regs[GYR_DATA_X_LSB + 2 * i], regs[GYR_DATA_X_LSB + 2 * i + 1]) as real
              && -2048.0 <= Axis(v, i).value <= 2047.9375
  {
    if MotionMode(imu.mode) then
      var data := BlockRead(regs, GYR_DATA_X_LSB, 6);
      ScaledAxes(data, GYR_SCALE);
      Scaled(Vector(data, 3), GYR_SCALE)
    else NULL_TRIPLET
  }

  /** `run()`: acceleration and angular rate together. Both are numbers or
      both are the null triplet; which one depends on the mode alone. */
  function Run(imu: Imu, regs: RegisterFile): (r: (Vec3, Vec3))
    ensures Complete(r.0) <==> Complete(r.1)
    ensures !Complete(r.0) ==> r.0 == NULL_TRIPLET && r.1 == NULL_TRIPLET
    ensures imu.mode == CONFIG ==> r == (NULL_TRIPLET, NULL_TRIPLET)
    ensures Complete(r.0) <==> MotionMode(imu.mode)
  {
    (Acceleration(imu, regs), Gyroscope(imu, regs))
  }
}

=== FILE: bus.dfy ===
/** The I2C bus shared by the IMU and the real-time clock, reduced to what the
    drivers observe: single-byte register writes, recorded in order as a trace,
    and reads served from a snapshot of the device's 8-bit register space. */
module Bus {

  /** One byte on the bus. */
  type Byte = b: int | 0 <= b < 256

  /** Number of addressable registers behind one I2C device address. */
  const REGISTER_COUNT: nat := 256

  /** `write_byte_data(address, reg, value)`: one register write. */
  datatype Write = Write(reg: Byte, value: Byte)

  /** What a device returns for each register address. */
  type RegisterFile = r: seq<Byte> | |r| == REGISTER_COUNT witness seq(REGISTER_COUNT, _ => 0)

  /** `read_i2c_block_data(address, start, n)`: `n` consecutive registers. */
  function BlockRead(regs: RegisterFile, start: Byte, n: nat): (data: seq<Byte>)
    requires start + n <= REGISTER_COUNT
    ensures |data| == n
    ensures forall i :: 0 <= i < n ==> data[i] == regs[start + i]
  {
    regs[start..start + n]
  }

  /** The register file of an idealised device that stores every byte written
      to it, after the writes `ws` have been applied in order. */
  function Apply(regs: RegisterFile, ws: seq<Write>): (r: RegisterFile)
    decreases |ws|
  {
    if ws == [] then regs
    else Apply(regs[ws[0].reg := ws[0].value], ws[1..])
  }

  /** Registers that no write in `ws` touches keep their value, and a register
      written last by the final write holds that write's value. */
  lemma {:induction false} ApplyLastWriteWins(regs: RegisterFile, ws: seq<Write>, reg: Byte)
    ensures (forall i :: 0 <= i < |ws| ==> ws[i].reg != reg) ==> Apply(regs, ws)[reg] == regs[reg]
    ensures forall i :: 0 <= i < |ws| && ws[i].reg == reg
                  && (forall j :: i < j < |ws| ==> ws[j].reg != reg)
                  ==> Apply(regs, ws)[reg] == ws[i].value
    decreases |ws|
  {
    if ws != [] {
      var regs' := regs[ws[0].reg := ws[0].value];
      ApplyLastWriteWins(regs', ws[1..], reg);
      forall i | 0 <= i < |ws| && ws[i].reg == reg
                 && (forall j :: i < j < |ws| ==> ws[j].reg != reg)
        ensures Apply(regs, ws)[reg] == ws[i].value
      {
        if i > 0 {
          assert ws[1..][i - 1] == ws[i];
          assert forall j :: i - 1 < j < |ws| - 1 ==> ws[1..][j].reg != reg by {
            forall j | i - 1 < j < |ws| - 1 ensures ws[1..][j].reg != reg {
              assert ws[1..][j] == ws[j + 1];
            }
          }
        } else {
          assert forall j :: 0 <= j < |ws| - 1 ==> ws[1..][j].reg != reg by {
            forall j | 0 <= j < |ws| - 1 ensures ws[1..][j].reg != reg {
              assert ws[1..][j] == ws[j + 1];
            }
          }
        }
      }
    }
  }
}

=== FILE: decimal.dfy ===
/** Decimal rendering of non-negative integers as Python's format
    specification `{n:02d}` produces it, and the matching parser. */
module Decimal {

  predicate IsDigit(c: char) {
    '0' <= c <= '9'
  }

  predicate AllDigits(s: string) {
    forall i :: 0 <= i < |s| ==> IsDigit(s[i])
  }

  function DigitChar(d: nat): (c: char)
    requires d < 10
    ensures IsDigit(c)
  {
    ('0' as int + d) as char
  }

  function DigitValue(c: char): (d: nat)
    requires IsDigit(c)
    ensures d < 10
  {
    c as int - '0' as int
  }

  /** The shortest decimal spelling of `n`, most significant digit first. */
  function Digits(n: nat): (s: string)
    ensures 1 <= |s|
    ensures AllDigits(s)
    decreases n
  {
    if n < 10 then [DigitChar(n)] else Digits(n / 10) + [DigitChar(n % 10)]
  }

  /** `width` copies of '0'. */
  function Zeros(width: nat): (s: string)
    ensures |s| == width
    ensures AllDigits(s)
  {
    seq(width, _ => '0')
  }

  /** `{n:0<width>d}`: the digits of `n`, left-padded with '0' up to `width`
      characters; a number wider than `width` is never truncated. */
  function Pad(n: nat, width: nat): (s: string)
    ensures AllDigits(s)
    ensures |s| >= width
  {
    var d := Digits(n);
    if |d| < width then Zeros(width - |d|) + d else d
  }

  /** The number a string of decimal digits denotes (leading zeros allowed). */
  function Value(s: string): nat
    requires AllDigits(s)
    decreases |s|
  {
    if s == [] then 0 else Value(s[..|s| - 1]) * 10 + DigitValue(s[|s| - 1])
  }

  /** Reading back the digits of `n` gives `n`. */
  lemma {:induction false} ValueOfDigits(n: nat)
    ensures Value(Digits(n)) == n
    decreases n
  {
    if n >= 10 {
      var s := Digits(n);
      assert s[..|s| - 1] == Digits(n / 10);
      ValueOfDigits(n / 10);
    }
  }

  /** Leading zeros do not change the value of a digit string. */
  lemma {:induction false} ValueIgnoresLeadingZeros(k: nat, s: string)
    requires AllDigits(s)
    ensures Value(Zeros(k) + s) == Value(s)
    decreases |s|
  {
    if s == [] {
      assert Zeros(k) + s == Zeros(k);
      ZerosValue(k);
    } else {
      var t := Zeros(k) + s;
      assert t[..|t| - 1] == Zeros(k) + s[..|s| - 1];
      ValueIgnoresLeadingZeros(k, s[..|s| - 1]);
    }
  }

  lemma {:induction false} ZerosValue(k: nat)
    ensures Value(Zeros(k)) == 0
    decreases k
  {
    if k > 0 {
      assert Zeros(k)[..k - 1] == Zeros(k - 1);
      ZerosValue(k - 1);
    }
  }

  /** The padded rendering reads back as the number it renders. */
  lemma PadRoundTrip(n: nat, width: nat)
    ensures Value(Pad(n, width)) == n
  {
    ValueOfDigits(n);
    if |Digits(n)| < width {
      ValueIgnoresLeadingZeros(width - |Digits(n)|, Digits(n));
    }
  }

  /** Number of digits of `n` for the magnitudes the timestamp uses. */
  lemma {:induction false} DigitsWidth(n: nat)
    ensures n < 10 ==> |Digits(n)| == 1
    ensures 10 <= n < 100 ==> |Digits(n)| == 2
    ensures 100 <= n < 1000 ==> |Digits(n)| == 3
    ensures 1000 <= n < 10000 ==> |Digits(n)| == 4
    decreases n
  {
    if n >= 10 {
      DigitsWidth(n / 10);
    }
  }

  /** `{n:02d}` is exactly two characters for every `n` below 100, and a
      four-digit number keeps its four characters. */
  lemma PadWidth(n: nat)
    ensures n < 100 ==> |Pad(n, 2)| == 2
    ensures 1000 <= n < 10000 ==> |Pad(n, 2)| == 4
  {
    DigitsWidth(n);
  }
}

=== FILE: ds3231.dfy ===
/** The DS3231 real-time clock driver: the binary-coded-decimal (BCD) codec
    for its timekeeping registers, the formatted timestamp `now()` builds
    from them, and the register writes `set_time` issues. */
module Ds3231 {
  import opened Options
  import opened Bus
  import Bits
  import Decimal

  // Timekeeping register addresses, in the order the chip lays them out.
  const SECOND: Byte := 0x00
  const MINUTE: Byte := 0x01
  const HOUR: Byte := 0x02
  const DAY: Byte := 0x03
  const DATE: Byte := 0x04
  const MONTH: Byte := 0x05
  const YEAR: Byte := 0x06

  /** `now()` reports two-digit years as years of this century. */
  const CENTURY_BASE: nat := 2000

  /** Length of a `YYYY-mm-dd HH:MM:SS` timestamp. */
  const TIMESTAMP_LENGTH: nat := 19

  /* ---------------------------------------------------------------- BCD codec */

  /** `_bcdToDec`: bits 4-6 are the tens digit and bits 0-3 the units
      digit; bit 7 (the century flag on the month register) is masked off,
      so no byte decodes above 85. */
  function BcdToDec(b: Byte): (d: nat)
    ensures d <= 85
  {
    (b / 16) % 8 * 10 + b % 16
  }

  /** `BcdToDec` computes exactly the source's expression
      `((b & 0x70) >> 4) * 10 + (b & 0x0F)`. */
  lemma BcdToDecIsBitExpression(b: Byte)
    ensures BcdToDec(b) == Bits.Shr(Bits.And(b, 0x70), 4) * 10 + Bits.And(b, 0x0F)
  {
    Bits.AndHighNibble(b);
    Bits.LowNibble(b);
    Bits.Pow2Values();
    Bits.ShrIsDiv(Bits.And(b, 0x70), 4);
    Bits.DivUnique(16 * ((b / 16) % 8), 16, (b / 16) % 8, 0);
  }

  /** `int.to_bytes(1, "little")` raises when the value is not one byte. */
  datatype BcdError = Overflow(value: int)

  /** The month flag as `_decToBcd` applies it, `bcd | 0x80`: bit 7 is set
      and every other bit kept. On a negative value the OR keeps the value
      negative, and the encoding fails anyway, so a negative value is passed
      through. */
  function MarkCentury(bcd: int): (r: int)
    ensures bcd < 0 ==> r == bcd
    ensures bcd >= 0 ==> && r % 256 >= 128
                         && r % 128 == bcd % 128
                         && r / 256 == bcd / 256
  {
    if bcd < 0 || bcd % 256 >= 128 then bcd
    else
      Bits.DivUnique(bcd + 128, 128, bcd / 128 + 1, bcd % 128);
      Bits.DivUnique(bcd + 128, 256, bcd / 256, bcd % 256 + 128);
      bcd + 128
  }

  /** `MarkCentury` is Python's `bcd | 0x80` on every non-negative value. */
  lemma MarkCenturyIsBitOr(bcd: nat)
    ensures MarkCentury(bcd) == Bits.Or(bcd, 0x80)
  {
    Bits.CenturyBitOr(bcd);
    Bits.Bit7(bcd);
  }

  /** The facts about `(tens << 4) + units`, before and after the century
      bit, that the contract of `DecToBcd` rests on. */
  lemma EncodingFacts(dec: int, isMonth: bool)
    ensures var bcd := dec / 10 * 16 + dec % 10;
            var marked := if isMonth then MarkCentury(bcd) else bcd;
            && (0 <= marked < 256 <==> 0 <= dec <= 159)
            && (0 <= dec <= 159 ==>
                  && marked % 16 == dec % 10
                  && (marked / 16) % 8 == (dec / 10) % 8
                  && (marked >= 128 <==> isMonth || dec >= 80))
  {
    var tens, units := dec / 10, dec % 10;
    var bcd := tens * 16 + units;
    Bits.DivUnique(bcd, 16, tens, units);
    if dec < 0 {
      assert tens <= -1;
      assert bcd < 0;
    } else if dec > 159 {
      assert tens >= 16;
      assert bcd >= 256;
    } else {
      assert 0 <= bcd <= 249;
      Bits.ModSmall(bcd, 256);
      if isMonth && bcd < 128 {
        Bits.DivUnique(bcd + 128, 16, tens + 8, units);
      }
      assert bcd >= 128 <==> tens >= 8;
    }
  }

  /** `_decToBcd(dec, is_month)`: `divmod(dec, 10)` gives the tens and units
      digits, the encoding is `(tens << 4) + units`, and the month register
      additionally gets the century bit. Fails exactly when the encoding
      does not fit in one byte, i.e. outside 0..159. */
  function DecToBcd(dec: int, isMonth: bool): (r: Result<Byte, BcdError>)
    ensures r.Success? <==> 0 <= dec <= 159
    ensures r.Success? ==> r.value % 16 == dec % 10
    ensures r.Success? ==> (r.value / 16) % 8 == (dec / 10) % 8
    ensures r.Success? ==> (r.value >= 128 <==> isMonth || dec >= 80)
  {
    // Python's divmod floors; for the divisor 10 Dafny's `/` and `%` agree,
    // and `tens << 4` multiplies by 16 for any sign of `tens`.
    var tens := dec / 10;
    var units := dec % 10;
    var bcd := tens * 16 + units;
    var marked := if isMonth then MarkCentury(bcd) else bcd;
    EncodingFacts(dec, isMonth);
    if 0 <= marked < 256 then Success(marked) else Failure(Overflow(marked))
  }

  /** Decoding ignores bit 7: a byte decodes the same with the century bit
      set as without it. */
  lemma BcdIgnoresCenturyBit(b: Byte)
    ensures 0 <= MarkCentury(b) < 256
    ensures BcdToDec(MarkCentury(b)) == BcdToDec(b)
  {
    Bits.ModSmall(b, 256);
    if b < 128 {
      Bits.DivUnique(b + 128, 16, b / 16 + 8, b % 16);
    }
  }

  /** Decoding an encoded value in 0..79 returns it, whether or not the
      century bit was added, because decoding masks bit 7 off. */
  lemma BcdRoundTrip(d: int, isMonth: bool)
    requires 0 <= d <= 79
    ensures DecToBcd(d, isMonth).Success?
    ensures BcdToDec(DecToBcd(d, isMonth).value) == d
  {
  }

  /** The bound 79 is exact: from 80 on, the tens bit 8 lands on bit 7, which
      decoding discards, so the round trip loses 80. */
  lemma BcdRoundTripBoundIsExact(d: int, isMonth: bool)
    requires 80 <= d <= 159
    ensures DecToBcd(d, isMonth).Success?
    ensures BcdToDec(DecToBcd(d, isMonth).value) == d - 80
  {
  }

  /** The other direction: every byte with a decimal low nibble is the
      encoding of its decoded value, the century bit being restored by
      encoding as a month exactly when it was set. */
  lemma BcdEncodeDecode(b: Byte)
    requires b % 16 <= 9
    ensures DecToBcd(BcdToDec(b), b >= 128) == Success(b)
  {
    var d := BcdToDec(b);
    Bits.DivUnique(d, 10, (b / 16) % 8, b % 16);
    var e := DecToBcd(d, b >= 128);
    SameByte(e.value, b);
  }

  /** A byte is determined by its low nibble, bits 4-6 and bit 7. */
  lemma SameByte(x: Byte, y: Byte)
    requires x % 16 == y % 16 && (x / 16) % 8 == (y / 16) % 8 && (x >= 128 <==> y >= 128)
    ensures x == y
  {
    assert x == 16 * (x / 16) + x % 16;
    assert y == 16 * (y / 16) + y % 16;
    assert x / 16 == (x / 16) % 8 + (if x >= 128 then 8 else 0);
    assert y / 16 == (y / 16) % 8 + (if y >= 128 then 8 else 0);
  }

  /* ------------------------------------------------------------ reading time */

  /** A calendar time as `now()` reports it. */
  datatype DateTime = DateTime(year: nat, month: nat, day: nat, hour: nat, minute: nat, second: nat)

  /** `now()` before formatting: the seven registers, in address order, are
      seconds, minutes, hours, weekday, date, month and year; the weekday is
      read and dropped, the month has `& 0x1F` applied to its decoded value
      and the year is offset into the 2000s. */
  function DecodeTime(data: seq<Byte>): (t: DateTime)
    requires |data| == 7
    ensures CENTURY_BASE <= t.year <= CENTURY_BASE + 85
    ensures t.month < 32
    ensures t.day <= 85 && t.hour <= 85 && t.minute <= 85 && t.second <= 85
    ensures BcdToDec(data[MONTH]) < 32 ==> t.month == BcdToDec(data[MONTH])
    ensures && t.second == BcdToDec(data[SECOND]) && t.minute == BcdToDec(data[MINUTE])
            && t.hour == BcdToDec(data[HOUR]) && t.day == BcdToDec(data[DATE])
            && t.month == StripCentury(BcdToDec(data[MONTH]))
            && t.year == CENTURY_BASE + BcdToDec(data[YEAR])
  {
    var s, m, h, d, mo, y := BcdToDec(data[SECOND]), BcdToDec(data[MINUTE]), BcdToDec(data[HOUR]),
                             BcdToDec(data[DATE]), BcdToDec(data[MONTH]), BcdToDec(data[YEAR]);
    DateTime(y + CENTURY_BASE, StripCentury(mo), d, h, m, s)
  }

  /** `m &= 0x1F`, applied by `now()` to the already decoded month: keeps
      the five low bits, so every value below 32 is unchanged. */
  function StripCentury(m: nat): (r: nat)
    ensures r < 32 && r <= m
    ensures m < 32 ==> r == m
  {
    m % 32
  }

  /** `StripCentury` is Python's `m & 0x1F`. */
  lemma StripCenturyIsMask(m: nat)
    ensures StripCentury(m) == Bits.And(m, 0x1F)
  {
    Bits.Low5Bits(m);
  }

  /** The weekday register is read but does not reach the result. */
  lemma DecodeIgnoresWeekday(data: seq<Byte>, w: Byte)
    requires |data| == 7
    ensures DecodeTime(data[DAY := w]) == DecodeTime(data)
  {
  }

  /** Stripping with `& 0x1F` never alters a decoded month in 1..12, and a
      month register read with or without its century bit decodes alike. */
  lemma MonthStripKeepsCalendarMonths(b: Byte, data: seq<Byte>)
    requires |data| == 7 && data[MONTH] == b
    requires 1 <= BcdToDec(b) <= 12
    ensures DecodeTime(data).month == BcdToDec(b)
    ensures 0 <= MarkCentury(b) < 256
    ensures DecodeTime(data[MONTH := MarkCentury(b)]).month == BcdToDec(b)
  {
    BcdIgnoresCenturyBit(b);
    var marked: Byte := MarkCentury(b);
    assert BcdToDec(marked) == BcdToDec(b);
    assert data[MONTH := marked][MONTH] == marked;
  }

  /** `f'{Y:02d}-{m:02d}-{d:02d} {H:02d}:{M:02d}:{S:02d}'`. */
  function Format(t: DateTime): (s: string)
    ensures |s| >= 6 * 2 + 5  // six fields of at least two digits, five separators
    ensures forall i :: 0 <= i < |s| ==> Decimal.IsDigit(s[i]) || s[i] in "- :"
  {
    Decimal.Pad(t.year, 2) + "-" + Decimal.Pad(t.month, 2) + "-" + Decimal.Pad(t.day, 2) + " "
      + Decimal.Pad(t.hour, 2) + ":" + Decimal.Pad(t.minute, 2) + ":" + Decimal.Pad(t.second, 2)
  }

  /** Character positions of the separators in a timestamp. */
  predicate IsSeparatorPosition(i: int) {
    i == 4 || i == 7 || i == 10 || i == 13 || i == 16
  }

  /** The shape every timestamp of `now()` has. */
  predicate WellFormed(s: string) {
    && |s| == TIMESTAMP_LENGTH
    && s[4] == '-' && s[7] == '-' && s[10] == ' ' && s[13] == ':' && s[16] == ':'
    && forall i :: 0 <= i < |s| && !IsSeparatorPosition(i) ==> Decimal.IsDigit(s[i])
  }

  /** Reads a timestamp back into its fields; `None` for any other string. */
  function Parse(s: string): (r: Option<DateTime>)
    ensures r.Some? <==> WellFormed(s)
  {
    if WellFormed(s) then
      assert Decimal.AllDigits(s[0..4]) && Decimal.AllDigits(s[5..7]) && Decimal.AllDigits(s[8..10]);
      assert Decimal.AllDigits(s[11..13]) && Decimal.AllDigits(s[14..16]) && Decimal.AllDigits(s[17..19]);
      Some(DateTime(Decimal.Value(s[0..4]), Decimal.Value(s[5..7]), Decimal.Value(s[8..10]),
                    Decimal.Value(s[11..13]), Decimal.Value(s[14..16]), Decimal.Value(s[17..19])))
    else None
  }

  /** Times whose fields `Format` renders at fixed width. */
  predicate Renderable(t: DateTime) {
    1000 <= t.year < 10000 && t.month < 100 && t.day < 100 && t.hour < 100 && t.minute < 100 && t.second < 100
  }

  /** Formatting a renderable time gives a well-formed timestamp that parses
      back to the same time. */
  lemma FormatRoundTrip(t: DateTime)
    requires Renderable(t)
    ensures WellFormed(Format(t))
    ensures Parse(Format(t)) == Some(t)
  {
    FormatLayout(t);
    var s := Format(t);
    assert WellFormed(s) by {
      forall i | 0 <= i < |s| && !IsSeparatorPosition(i) ensures Decimal.IsDigit(s[i]) {
        if i < 4 { assert s[i] == s[0..4][i]; }
        else if i < 7 { assert s[i] == s[5..7][i - 5]; }
        else if i < 10 { assert s[i] == s[8..10][i - 8]; }
        else if i < 13 { assert s[i] == s[11..13][i - 11]; }
        else if i < 16 { assert s[i] == s[14..16][i - 14]; }
        else { assert s[i] == s[17..19][i - 17]; }
      }
    }
    Decimal.PadRoundTrip(t.year, 2);
    Decimal.PadRoundTrip(t.month, 2);
    Decimal.PadRoundTrip(t.day, 2);
    Decimal.PadRoundTrip(t.hour, 2);
    Decimal.PadRoundTrip(t.minute, 2);
    Decimal.PadRoundTrip(t.second, 2);
  }

  /** Where each field and separator of a formatted timestamp sits. */
  lemma FormatLayout(t: DateTime)
    requires Renderable(t)
    ensures var s := Format(t);
            && |s| == TIMESTAMP_LENGTH
            && s[4] == '-' && s[7] == '-' && s[10] == ' ' && s[13] == ':' && s[16] == ':'
            && s[0..4] == Decimal.Pad(t.year, 2)
            && s[5..7] == Decimal.Pad(t.month, 2)
            && s[8..10] == Decimal.Pad(t.day, 2)
            && s[11..13] == Decimal.Pad(t.hour, 2)
            && s[14..16] == Decimal.Pad(t.minute, 2)
            && s[17..19] == Decimal.Pad(t.second, 2)
  {
    Decimal.PadWidth(t.year);
    Decimal.PadWidth(t.month);
    Decimal.PadWidth(t.day);
    Decimal.PadWidth(t.hour);
    Decimal.PadWidth(t.minute);
    Decimal.PadWidth(t.second);
    var y, mo, d := Decimal.Pad(t.year, 2), Decimal.Pad(t.month, 2), Decimal.Pad(t.day, 2);
    var h, mi, se := Decimal.Pad(t.hour, 2), Decimal.Pad(t.minute, 2), Decimal.Pad(t.second, 2);
    assert Format(t) == (y + "-" + mo + "-" + d) + " " + (h + ":" + mi + ":" + se);
    ThreeFields(y, mo, d, '-');
    ThreeFields(h, mi, se, ':');
    Join(y + "-" + mo + "-" + d, h + ":" + mi + ":" + se);
  }

  /** `a`, `b` and `c` joined by `sep`, with `a` of two or four characters. */
  lemma ThreeFields(a: string, b: string, c: string, sep: char)
    requires (|a| == 4 || |a| == 2) && |b| == 2 && |c| == 2
    ensures var s := a + [sep] + b + [sep] + c;
            && |s| == |a| + 6
            && s[|a|] == sep && s[|a| + 3] == sep
            && s[0..|a|] == a && s[|a| + 1..|a| + 3] == b && s[|a| + 4..|a| + 6] == c
  {
  }

  /** A 10-character date and an 8-character time joined by a space. */
  lemma Join(date: string, time: string)
    requires |date| == 10 && |time| == 8
    ensures var s := date + " " + time;
            && s[10] == ' '
            && (forall i, j :: 0 <= i <= j <= 10 ==> s[i..j] == date[i..j])
            && (forall i, j :: 0 <= i <= j <= 8 ==> s[11 + i..11 + j] == time[i..j])
  {
  }

  /** `now()`: reads registers 0x00..0x06 and formats them. For ANY register
      contents the result is a 19-character timestamp with '-' at 4 and 7,
      ' ' at 10, ':' at 13 and 16, which parses back to the decoded time. */
  function Now(regs: RegisterFile): (s: string)
    ensures WellFormed(s)
    ensures Parse(s) == Some(DecodeTime(BlockRead(regs, SECOND, 7)))
  {
    var t := DecodeTime(BlockRead(regs, SECOND, 7));
    FormatRoundTrip(t);
    Format(t)
  }

  /* ------------------------------------------------------------ setting time */

  /** The 8-field time tuple `set_time` unpacks, in `time.struct_time`
      order: year, month, day, hour, minute, second, weekday, day of year. */
  datatype TimeTuple = TimeTuple(year: int, month: int, day: int, hour: int, minute: int,
                                 second: int, weekday: int, yearday: int)

  /** One register `set_time` fills: address, decimal value, month flag. */
  datatype Field = Field(reg: Byte, dec: int, isMonth: bool)

  /** The writes issued and, if an encoding raised, the error that stopped
      the remaining writes (the writes before it have already happened). */
  datatype SetTimeOutcome = SetTimeOutcome(writes: seq<Write>, error: Option<BcdError>)

  /** Encodes and writes each field in turn, stopping at the first field
      whose encoding raises. */
  function WriteFields(fields: seq<Field>): (r: SetTimeOutcome)
    ensures |r.writes| <= |fields|
    ensures forall i :: 0 <= i < |r.writes| ==>
              r.writes[i].reg == fields[i].reg
              && DecToBcd(fields[i].dec, fields[i].isMonth) == Success(r.writes[i].value)
    ensures r.error.None? <==> forall i :: 0 <= i < |fields| ==> DecToBcd(fields[i].dec, fields[i].isMonth).Success?
    ensures r.error.None? ==> |r.writes| == |fields|
    ensures r.error.Some? ==> |r.writes| < |fields|
                              && DecToBcd(fields[|r.writes|].dec, fields[|r.writes|].isMonth) == Failure(r.error.value)
    decreases |fields|
  {
    if fields == [] then SetTimeOutcome([], None)
    else
      match DecToBcd(fields[0].dec, fields[0].isMonth)
      case Failure(e) => SetTimeOutcome([], Some(e))
      case Success(b) =>
        var rest := WriteFields(fields[1..]);
        SetTimeOutcome([Write(fields[0].reg, b)] + rest.writes, rest.error)
  }

  /** The register order of `set_time`, with the value destined for the year
      register supplied by the caller. */
  function Fields(t: TimeTuple, yearRegister: int): (fs: seq<Field>)
    ensures |fs| == 7
    ensures forall i :: 0 <= i < 7 ==> fs[i].reg == i && (fs[i].isMonth <==> i == MONTH)
    ensures fs[SECOND].dec == t.second && fs[MINUTE].dec == t.minute && fs[HOUR].dec == t.hour
    ensures fs[DAY].dec == t.weekday && fs[DATE].dec == t.day && fs[MONTH].dec == t.month
    ensures fs[YEAR].dec == yearRegister
  {
    [Field(SECOND, t.second, false), Field(MINUTE, t.minute, false), Field(HOUR, t.hour, false),
     Field(DAY, t.weekday, false), Field(DATE, t.day, false), Field(MONTH, t.month, true),
     Field(YEAR, yearRegister, false)]
  }

  /** `set_time(t)` as written, once `_decToBcd` is called without its stray
      `self` and its byte is written as an integer: the four-digit year goes
      to the encoder unchanged. Writes go to registers 0x00.. in order, and
      the call completes exactly when every field, the four-digit year
      included, lies in 0..159. */
  function SetTimeAsWritten(t: TimeTuple): (r: SetTimeOutcome)
    ensures |r.writes| <= 7 && forall i :: 0 <= i < |r.writes| ==> r.writes[i].reg == i
    ensures r.error.None? <==> && 0 <= t.second <= 159 && 0 <= t.minute <= 159 && 0 <= t.hour <= 159
                               && 0 <= t.weekday <= 159 && 0 <= t.day <= 159 && 0 <= t.month <= 159
                               && 0 <= t.year <= 159
  {
    var fs := Fields(t, t.year);
    WriteFields(fs)
  }

  /** Every year from 160 on, so every year `time.localtime()` reports,
      overflows the one-byte encoding: the six other registers are written,
      the year register never is, and `set_time` raises. */
  lemma SetTimeAsWrittenOverflows(t: TimeTuple)
    requires 0 <= t.second <= 159 && 0 <= t.minute <= 159 && 0 <= t.hour <= 159
    requires 0 <= t.weekday <= 159 && 0 <= t.day <= 159 && 0 <= t.month <= 159
    requires t.year >= 160
    ensures SetTimeAsWritten(t).error.Some?
    ensures |SetTimeAsWritten(t).writes| == 6
  {
    var fs := Fields(t, t.year);
    assert !DecToBcd(fs[6].dec, fs[6].isMonth).Success?;
    assert forall i :: 0 <= i < 6 ==> DecToBcd(fs[i].dec, fs[i].isMonth).Success?;
  }

  /** A time `set_time` can store and `now()` can report unchanged. */
  predicate Storable(t: TimeTuple) {
    && CENTURY_BASE <= t.year <= CENTURY_BASE + 79
    && 1 <= t.month <= 12 && 1 <= t.day <= 31
    && 0 <= t.hour < 24 && 0 <= t.minute < 60 && 0 <= t.second < 60
    && 0 <= t.weekday <= 6
  }

  /** `set_time(t)` with the year reduced to its two-digit register value,
      the counterpart of the `+ 2000` in `now()`. Succeeds on every storable
      time, writing registers 0x00..0x06 once each in address order, and only
      the month write carries bit 7. */
  function SetTime(t: TimeTuple): (r: SetTimeOutcome)
    ensures Storable(t) ==> r.error.None? && |r.writes| == 7
    ensures Storable(t) ==> forall i :: 0 <= i < 7 ==> r.writes[i].reg == i
    ensures Storable(t) ==> forall i :: 0 <= i < 7 ==> (r.writes[i].value >= 128 <==> i == MONTH)
  {
    StorableWrites(t);
    WriteFields(Fields(t, t.year - CENTURY_BASE))
  }

  /** The writes for a storable time: all seven fields encode, and only the
      month's encoding has bit 7 set. */
  lemma StorableWrites(t: TimeTuple)
    ensures var r := WriteFields(Fields(t, t.year - CENTURY_BASE));
            Storable(t) ==>
              && r.error.None? && |r.writes| == 7
              && (forall i :: 0 <= i < 7 ==> r.writes[i].reg == i)
              && (forall i :: 0 <= i < 7 ==> (r.writes[i].value >= 128 <==> i == MONTH))
  {
    if !Storable(t) { return; }
    var fs := Fields(t, t.year - CENTURY_BASE);
    var r := WriteFields(fs);
    StorableFieldsInRange(t, fs);
    forall i | 0 <= i < 7
      ensures DecToBcd(fs[i].dec, fs[i].isMonth).Success?
    {
      SmallEncoding(fs[i].dec, fs[i].isMonth);
    }
    forall i | 0 <= i < 7
      ensures r.writes[i].value >= 128 <==> i == MONTH
    {
      SmallEncoding(fs[i].dec, fs[i].isMonth);
    }
  }

  /** Every field of a storable time, the year taken from 2000, is in 0..79. */
  lemma StorableFieldsInRange(t: TimeTuple, fs: seq<Field>)
    requires Storable(t) && fs == Fields(t, t.year - CENTURY_BASE)
    ensures forall i :: 0 <= i < 7 ==> 0 <= fs[i].dec <= 79
  {
    assert fs[0].dec == t.second && fs[1].dec == t.minute && fs[2].dec == t.hour;
    assert fs[3].dec == t.weekday && fs[4].dec == t.day && fs[5].dec == t.month;
    assert fs[6].dec == t.year - CENTURY_BASE;
  }

  /** A value in 0..79 encodes, and carries bit 7 exactly as a month. */
  lemma SmallEncoding(dec: int, isMonth: bool)
    requires 0 <= dec <= 79
    ensures DecToBcd(dec, isMonth).Success?
    ensures DecToBcd(dec, isMonth).value >= 128 <==> isMonth
  {
  }

  /** Setting a storable time and then reading the clock reports that time:
      the registers `now()` reads decode to exactly the fields written. */
  lemma SetTimeThenNow(t: TimeTuple, regs: RegisterFile)
    requires Storable(t)
    ensures DecodeTime(BlockRead(Apply(regs, SetTime(t).writes), SECOND, 7))
            == DateTime(t.year, t.month, t.day, t.hour, t.minute, t.second)
    ensures Now(Apply(regs, SetTime(t).writes))
            == Format(DateTime(t.year, t.month, t.day, t.hour, t.minute, t.second))
  {
    var ws := SetTime(t).writes;
    var fs := Fields(t, t.year - CENTURY_BASE);
    var after := Apply(regs, ws);
    var data := BlockRead(after, SECOND, 7);
    forall k | 0 <= k < 7
      ensures data[k] == ws[k].value
      ensures BcdToDec(data[k]) == fs[k].dec
    {
      ApplyLastWriteWins(regs, ws, k);
      assert ws[k].reg == k;
      BcdRoundTrip(fs[k].dec, fs[k].isMonth);
    }
  }
}

=== FILE: options.dfy ===
/** Optional values and fallible results, used wherever the Python source
    returns `None` or raises an exception. */
module Options {

  /** A value that may be absent; `None` stands for Python's `None`. */
  datatype Option<+T> = None | Some(value: T) {

    /** The carried value, or `default` when absent. */
    function GetOr(default: T): T {
      match this
      case Some(v) => v
      case None => default
    }
  }

  /** The outcome of an operation that either returns a value or raises. */
  datatype Result<+T, +E> = Success(value: T) | Failure(error: E)
}

=== FILE: scheduler.dfy ===
/** The sampling scheduler of the logger's main loop: the millisecond clock,
    the two per-channel tick functions `log_imu` and `log_gps`, and the
    drift-free schedule that repeated ticks produce. The clock and the
    wall-clock timestamp are inputs; so are the sensor readings. */
module Scheduler {
  import opened Options
  import Bno055
  import Bus

  const IMU_SAMPLE_INTERVAL: nat := 10
  const GPS_SAMPLE_INTERVAL: nat := 500
  const NS_PER_MS: nat := 1000000

  /* ------------------------------------------------------------ clock */

  /** `millis()`: nanoseconds since the epoch floor-divided by one million. */
  function Millis(ns: int): (ms: int)
    ensures ms * NS_PER_MS <= ns < ms * NS_PER_MS + NS_PER_MS
  {
    ns / NS_PER_MS
  }

  /** The millisecond clock never runs backwards when the nanosecond clock
      does not, and it moves by at most one per million nanoseconds. */
  lemma MillisMonotone(a: int, b: int)
    requires a <= b
    ensures Millis(a) <= Millis(b)
    ensures Millis(b) - Millis(a) <= (b - a) / NS_PER_MS + 1
  {
  }

  /* ------------------------------------------------------------ rows */

  /** One cell of a logged table. `Timestamp` is `datetime.now()`, an opaque
      wall-clock value; a GPS field is one value of `gps.run()`, taken as an
      opaque string. */
  datatype Cell =
    | Text(s: string)
    | Timestamp(wall: int)
    | Elapsed(ms: int)
    | Motion(v: Bno055.Vec3)
    | Field(s: string)

  type Row = seq<Cell>

  /** What `gps.run()` returns: latitude, longitude, altitude, speed. With a
      fix the first two are six-decimal strings, the altitude is the
      receiver's value as it comes, and the speed is a number, or the string
      '0' when the receiver reports no speed; the model takes all four as
      opaque strings. */
  datatype GpsFix = GpsFix(lat: string, lon: string, alt: string, vel: string)

  /** The reading `gps.run()` gives without a fix. */
  const NO_FIX: GpsFix := GpsFix("0", "0", "0", "0")

  const IMU_HEADER: Row := [Text("Timestamp"), Text("Time (ms)"),
                            Text("Acceleration (m/s^2)"), Text("Gyroscope (deg/sec)")]
  const GPS_HEADER: Row := [Text("Timestamp"), Text("Time (ms)"),
                            Text("Latitude (deg)"), Text("Longitude (deg)"),
                            Text("Altitude (m)"), Text("Velocity (m/s)")]

  /** A data row: the wall-clock timestamp, the elapsed time, then the
      readings. */
  predicate SampleRow(row: Row, wall: int, elapsed: int, width: nat) {
    && |row| == width
    && width >= 2
    && row[0] == Timestamp(wall)
    && row[1] == Elapsed(elapsed)
  }

  /* ------------------------------------------------------------ one tick */

  /** What a tick returns: the next due time (`None` when nothing was due)
      and the buffer after the tick. */
  datatype Tick = Tick(next: Option<int>, data: seq<Row>)

  /** The shared shape of `log_imu` and `log_gps`: when `now` has reached
      `due`, append one row whose elapsed field is `due - tStart` and return
      `due + interval`; otherwise append nothing and return `None`. */
  function Sample(data: seq<Row>, tStart: int, due: int, now: int, interval: nat,
                  wall: int, readings: seq<Cell>): (r: Tick)
    ensures now >= due <==> r.next.Some?
    ensures now >= due ==> && r.next.value - interval == due
                           && |r.data| == |data| + 1
                           && r.data[..|data|] == data
                           && SampleRow(r.data[|data|], wall, due - tStart, 2 + |readings|)
                           && r.data[|data|][2..] == readings
    ensures now < due ==> r.data == data
  {
    if now >= due then
      Tick(Some(due + interval), data + [[Timestamp(wall), Elapsed(due - tStart)] + readings])
    else
      Tick(None, data)
  }

  /** `log_imu`: the accelerometer and gyroscope are read only when a sample
      is due; the row has four fields and the due time moves by 10 ms. */
  function LogImu(data: seq<Row>, tStart: int, due: int, now: int, wall: int,
                  imu: Bno055.Imu, regs: Bus.RegisterFile): (r: Tick)
    ensures now >= due <==> r.next == Some(due + IMU_SAMPLE_INTERVAL)
    ensures now < due <==> r.next == None
    ensures now >= due ==> && |r.data| == |data| + 1
                           && r.data[..|data|] == data
                           && SampleRow(r.data[|data|], wall, due - tStart, 4)
                           && r.data[|data|][2] == Motion(Bno055.Acceleration(imu, regs))
                           && r.data[|data|][3] == Motion(Bno055.Gyroscope(imu, regs))
    ensures now < due ==> r.data == data
  {
    if now >= due then
      var (acc, gyro) := Bno055.Run(imu, regs);
      Sample(data, tStart, due, now, IMU_SAMPLE_INTERVAL, wall, [Motion(acc), Motion(gyro)])
    else
      Tick(None, data)
  }

  /** `log_gps`: the receiver is read only when a sample is due; the row has
      six fields and the due time moves by 500 ms. */
  function LogGps(data: seq<Row>, tStart: int, due: int, now: int, wall: int,
                  fix: GpsFix): (r: Tick)
    ensures now >= due <==> r.next == Some(due + GPS_SAMPLE_INTERVAL)
    ensures now < due <==> r.next == None
    ensures now >= due ==> && |r.data| == |data| + 1
                           && r.data[..|data|] == data
                           && SampleRow(r.data[|data|], wall, due - tStart, 6)
                           && r.data[|data|][2..] == [Field(fix.lat), Field(fix.lon),
                                                      Field(fix.alt), Field(fix.vel)]
    ensures now < due ==> r.data == data
  {
    Sample(data, tStart, due, now, GPS_SAMPLE_INTERVAL, wall,
           [Field(fix.lat), Field(fix.lon), Field(fix.alt), Field(fix.vel)])
  }

  /** The next due time depends on the previous due time only: however late
      the tick, the schedule does not slip to `now`. */
  lemma SampleAnchoredToDue(data: seq<Row>, tStart: int, due: int, now1: int, now2: int,
                            interval: nat, wall: int, readings: seq<Cell>)
    requires now1 >= due && now2 >= due
    ensures Sample(data, tStart, due, now1, interval, wall, readings)
            == Sample(data, tStart, due, now2, interval, wall, readings)
  {
  }

  /* ------------------------------------------------------------ channels */

  /** One channel of a session: its interval, the session start, the next
      due time and the table so far (header first). */
  datatype Channel = Channel(interval: nat, start: int, due: int, rows: seq<Row>)

  /** A channel as the session creates it: due at once, header only. */
  function Open(interval: nat, start: int, header: Row): (ch: Channel)
    requires interval > 0
    ensures DriftFree(ch, header)
    ensures Samples(ch) == 0
  {
    Channel(interval, start, start, [header])
  }

  /** Number of data rows below the header. */
  function Samples(ch: Channel): int {
    |ch.rows| - 1
  }

  /** A table on a fixed schedule: the header first, then data rows of which
      the k-th (from 0) records elapsed time k * interval. */
  predicate Scheduled(rows: seq<Row>, header: Row, interval: nat) {
    && |rows| >= 1
    && rows[0] == header
    && forall k :: 1 <= k < |rows| ==>
         |rows[k]| >= 2 && rows[k][1] == Elapsed((k - 1) * interval)
  }

  /** The channel's schedule has not drifted: its table is on schedule and
      the next due time is start + samples * interval. */
  predicate DriftFree(ch: Channel, header: Row) {
    && ch.interval > 0
    && Scheduled(ch.rows, header, ch.interval)
    && ch.due == ch.start + Samples(ch) * ch.interval
  }

  /** The elapsed time a data row records. */
  function ElapsedOf(row: Row): int
    requires |row| >= 2 && row[1].Elapsed?
  {
    row[1].ms
  }

  /** One corrected tick of a channel: a tick that was not due keeps the
      previous due time instead of replacing it with `None`. */
  function Step(ch: Channel, now: int, wall: int, readings: seq<Cell>): (r: Channel)
    ensures r.interval == ch.interval && r.start == ch.start
    ensures now >= ch.due ==> Samples(r) == Samples(ch) + 1 && r.due == ch.due + ch.interval
    ensures now < ch.due ==> r == ch
    ensures |ch.rows| <= |r.rows| && r.rows[..|ch.rows|] == ch.rows
  {
    var t := Sample(ch.rows, ch.start, ch.due, now, ch.interval, wall, readings);
    ch.(due := t.next.GetOr(ch.due), rows := t.data)
  }

  /** A tick preserves the drift-free schedule. */
  lemma StepKeepsDriftFree(ch: Channel, header: Row, now: int, wall: int, readings: seq<Cell>)
    ensures DriftFree(ch, header) ==> DriftFree(Step(ch, now, wall, readings), header)
  {
    var r := Step(ch, now, wall, readings);
    if DriftFree(ch, header) && now >= ch.due {
      var n := Samples(ch);
      assert r.rows == ch.rows + [[Timestamp(wall), Elapsed(ch.due - ch.start)] + readings];
      assert (n + 1) * ch.interval == n * ch.interval + ch.interval;
      forall k | 1 <= k < |r.rows|
        ensures |r.rows[k]| >= 2 && r.rows[k][1] == Elapsed((k - 1) * r.interval)
      {
        if k < |ch.rows| {
          assert r.rows[k] == ch.rows[k];
        } else {
          assert k - 1 == n;
        }
      }
    }
  }

  /** Even when several intervals have been missed, a tick takes exactly one
      sample, and the channel is then still due. */
  lemma OneSamplePerTick(ch: Channel, header: Row, now: int, wall: int, readings: seq<Cell>)
    requires DriftFree(ch, header)
    requires now >= ch.due + 2 * ch.interval
    ensures Samples(Step(ch, now, wall, readings)) == Samples(ch) + 1
    ensures Step(ch, now, wall, readings).due <= now
  {
  }

  lemma MulStrict(a: int, b: int, c: int)
    requires a < b && c > 0
    ensures a * c < b * c
  {
    assert b * c - a * c == (b - a) * c;
  }

  /** The elapsed column of a drift-free channel strictly increases, so no
      two samples share an elapsed time. */
  lemma ElapsedIncreasing(ch: Channel, header: Row, j: int, k: int)
    requires DriftFree(ch, header)
    requires 1 <= j < k < |ch.rows|
    ensures ElapsedOf(ch.rows[j]) < ElapsedOf(ch.rows[k])
  {
    MulStrict(j - 1, k - 1, ch.interval);
  }

  /* ------------------------------------------------------------ runs */

  /** One loop iteration's inputs to a channel. */
  datatype Input = Input(now: int, wall: int, readings: seq<Cell>)

  /** The readings `log_imu` records: `imu.run()`. */
  function ImuReadings(imu: Bno055.Imu, regs: Bus.RegisterFile): seq<Cell> {
    var (acc, gyro) := Bno055.Run(imu, regs);
    [Motion(acc), Motion(gyro)]
  }

  /** The readings `log_gps` records: `gps.run()`. */
  function GpsReadings(fix: GpsFix): seq<Cell> {
    [Field(fix.lat), Field(fix.lon), Field(fix.alt), Field(fix.vel)]
  }

  /** The IMU channel advanced by `log_imu`, keeping the due time when the
      tick was not due. */
  function ImuStep(ch: Channel, now: int, wall: int, imu: Bno055.Imu, regs: Bus.RegisterFile): (r: Channel)
    ensures r.interval == ch.interval && r.start == ch.start
    ensures now >= ch.due ==> && r.due == ch.due + IMU_SAMPLE_INTERVAL
                              && |r.rows| == |ch.rows| + 1 && r.rows[..|ch.rows|] == ch.rows
                              && SampleRow(r.rows[|ch.rows|], wall, ch.due - ch.start, 4)
                              && r.rows[|ch.rows|][2..] == ImuReadings(imu, regs)
    ensures now < ch.due ==> r == ch
  {
    var t := LogImu(ch.rows, ch.start, ch.due, now, wall, imu, regs);
    ch.(due := t.next.GetOr(ch.due), rows := t.data)
  }

  /** The GPS channel advanced by `log_gps`, likewise. */
  function GpsStep(ch: Channel, now: int, wall: int, fix: GpsFix): (r: Channel)
    ensures r.interval == ch.interval && r.start == ch.start
    ensures now >= ch.due ==> && r.due == ch.due + GPS_SAMPLE_INTERVAL
                              && |r.rows| == |ch.rows| + 1 && r.rows[..|ch.rows|] == ch.rows
                              && SampleRow(r.rows[|ch.rows|], wall, ch.due - ch.start, 6)
                              && r.rows[|ch.rows|][2..] == GpsReadings(fix)
    ensures now < ch.due ==> r == ch
  {
    var t := LogGps(ch.rows, ch.start, ch.due, now, wall, fix);
    ch.(due := t.next.GetOr(ch.due), rows := t.data)
  }

  /** On channels with their own interval, `log_imu` and `log_gps` are the
      generic step with the sensor's readings. */
  lemma LogFunctionsAreSteps(ch: Channel, now: int, wall: int, imu: Bno055.Imu,
                             regs: Bus.RegisterFile, fix: GpsFix)
    ensures ch.interval == IMU_SAMPLE_INTERVAL ==>
              ImuStep(ch, now, wall, imu, regs) == Step(ch, now, wall, ImuReadings(imu, regs))
    ensures ch.interval == GPS_SAMPLE_INTERVAL ==>
              GpsStep(ch, now, wall, fix) == Step(ch, now, wall, GpsReadings(fix))
  {
  }

  /** A channel after a sequence of ticks. */
  function Run(ch: Channel, inputs: seq<Input>): (r: Channel)
    ensures r.interval == ch.interval && r.start == ch.start
    ensures AllDue(ch.due, Clock(inputs), ch.interval) ==>
              r.due == ch.due + |inputs| * ch.interval && |r.rows| == |ch.rows| + |inputs|
    ensures |ch.rows| <= |r.rows| <= |ch.rows| + |inputs|
    ensures r.rows[..|ch.rows|] == ch.rows
    decreases |inputs|
  {
    if |inputs| == 0 then ch
    else
      var next := Step(ch, inputs[0].now, inputs[0].wall, inputs[0].readings);
      var r := Run(next, inputs[1..]);
      assert r.rows[..|ch.rows|] == r.rows[..|next.rows|][..|ch.rows|];
      AllDueTail(Some(ch.due), Clock(inputs), ch.interval);
      assert Clock(inputs)[1..] == Clock(inputs[1..]);
      r
  }

  /** The clock readings of a run's ticks. */
  function Clock(inputs: seq<Input>): (nows: seq<int>)
    ensures |nows| == |inputs|
    ensures forall k :: 0 <= k < |inputs| ==> nows[k] == inputs[k].now
  {
    seq(|inputs|, k requires 0 <= k < |inputs| => inputs[k].now)
  }

  /** Every prefix of a run keeps the schedule drift-free, and a run of n
      ticks takes at most n samples. */
  lemma {:induction false} RunKeepsDriftFree(ch: Channel, header: Row, inputs: seq<Input>)
    requires DriftFree(ch, header)
    ensures DriftFree(Run(ch, inputs), header)
    ensures Samples(ch) <= Samples(Run(ch, inputs)) <= Samples(ch) + |inputs|
    ensures Run(ch, inputs).start == ch.start && Run(ch, inputs).interval == ch.interval
    decreases |inputs|
  {
    if |inputs| > 0 {
      var next := Step(ch, inputs[0].now, inputs[0].wall, inputs[0].readings);
      StepKeepsDriftFree(ch, header, inputs[0].now, inputs[0].wall, inputs[0].readings);
      RunKeepsDriftFree(next, header, inputs[1..]);
    }
  }

  predicate ClockBelow(inputs: seq<Input>, limit: int) {
    forall i :: 0 <= i < |inputs| ==> inputs[i].now <= limit
  }

  /** No sample is taken ahead of time: if the clock never passed `limit`,
      the last sample's scheduled time is at most `limit`. */
  predicate NotAhead(ch: Channel, limit: int) {
    Samples(ch) == 0 || ch.due - ch.interval <= limit
  }

  lemma {:induction false} RunNotAhead(ch: Channel, inputs: seq<Input>, limit: int)
    requires NotAhead(ch, limit) && ClockBelow(inputs, limit)
    ensures NotAhead(Run(ch, inputs), limit)
    decreases |inputs|
  {
    if |inputs| > 0 {
      var next := Step(ch, inputs[0].now, inputs[0].wall, inputs[0].readings);
      assert NotAhead(next, limit);
      assert ClockBelow(inputs[1..], limit) by {
        forall i | 0 <= i < |inputs[1..]| ensures inputs[1..][i].now <= limit {
          assert inputs[1..][i] == inputs[i + 1];
        }
      }
      RunNotAhead(next, inputs[1..], limit);
    }
  }

  /** A session whose clock never passed `limit` holds at most
      (limit - start) / interval + 1 samples per channel. */
  lemma SamplesBoundedByClock(header: Row, interval: nat, start: int, inputs: seq<Input>, limit: int)
    requires interval > 0 && limit >= start
    requires ClockBelow(inputs, limit)
    ensures Samples(Run(Open(interval, start, header), inputs)) <= (limit - start) / interval + 1
  {
    var ch := Open(interval, start, header);
    RunKeepsDriftFree(ch, header, inputs);
    RunNotAhead(ch, inputs, limit);
    ChannelBoundedByClock(Run(ch, inputs), header, limit);
  }

  /** The bound for one drift-free channel that is not ahead of `limit`. */
  lemma ChannelBoundedByClock(r: Channel, header: Row, limit: int)
    requires DriftFree(r, header) && NotAhead(r, limit) && limit >= r.start
    ensures Samples(r) <= (limit - r.start) / r.interval + 1
  {
    if Samples(r) > 0 {
      CountBound(Samples(r), r.interval, limit - r.start, r.due - r.start);
    }
  }

  /** s samples a distance d apart, the last at most a after the first,
      number at most a / d + 1. */
  lemma CountBound(s: nat, d: nat, a: nat, span: int)
    requires d > 0 && s >= 1
    requires span == s * d && span - d <= a
    ensures s <= a / d + 1
  {
    assert span - d == (s - 1) * d;
    if s - 1 > a / d {
      QuotientBound(a, d, s - 1);
    }
  }

  lemma QuotientBound(a: nat, d: nat, q: int)
    requires d > 0 && q > a / d
    ensures q * d > a
  {
    assert (a / d + 1) * d == (a / d) * d + d;
    if q > a / d + 1 {
      MulStrict(a / d + 1, q, d);
    }
  }

  /* ------------------------------------------------------------ as written */

  /** What the loop stores as `t_imu` / `t_gps` in the source: the tick's
      return value itself, which is `None` after a tick that was not due.
      This assumes the ticks are submitted with their `data` argument; as
      submitted, without it, `f1.result()` already raises on the first pass. */
  datatype AsWrittenError = TypeError

  /** One tick as the source performs it. Comparing the clock with a due time
      of `None` raises, so the tick after a not-due tick fails. */
  function TickAsWritten(due: Option<int>, now: int, interval: nat): (r: Result<Option<int>, AsWrittenError>)
    ensures due.None? <==> r.Failure?
    ensures due.Some? && now >= due.value ==> r == Success(Some(due.value + interval))
    ensures due.Some? && now < due.value ==> r == Success(None)
  {
    match due
    case None => Failure(TypeError)
    case Some(d) => Success(Sample([], 0, d, now, interval, 0, []).next)
  }

  /** The as-written loop over a sequence of clock readings. */
  function RunAsWritten(due: Option<int>, nows: seq<int>, interval: nat): (r: Result<Option<int>, AsWrittenError>)
    ensures due.None? && |nows| > 0 ==> r.Failure?
    ensures due.Some? && AllDue(due.value, nows, interval) ==> r == Success(Some(due.value + |nows| * interval))
    decreases |nows|
  {
    if |nows| == 0 then Success(due)
    else match TickAsWritten(due, nows[0], interval)
      case Failure(e) => Failure(e)
      case Success(next) =>
        AllDueTail(due, nows, interval);
        RunAsWritten(next, nows[1..], interval)
  }

  /** Every clock reading reaches its slot of the schedule: the k-th reading
      is at least `due + k * interval`. */
  predicate AllDue(due: int, nows: seq<int>, interval: nat) {
    forall k :: 0 <= k < |nows| ==> nows[k] >= due + k * interval
  }

  lemma AllDueTail(due: Option<int>, nows: seq<int>, interval: nat)
    requires |nows| > 0
    ensures due.Some? && AllDue(due.value, nows, interval) ==>
              && nows[0] >= due.value
              && AllDue(due.value + interval, nows[1..], interval)
              && due.value + interval + (|nows| - 1) * interval == due.value + |nows| * interval
  {
    if due.Some? && AllDue(due.value, nows, interval) {
      var d := due.value;
      assert nows[0] >= d + 0 * interval;
      forall k | 0 <= k < |nows[1..]| ensures nows[1..][k] >= d + interval + k * interval {
        assert nows[1..][k] == nows[k + 1] >= d + (k + 1) * interval;
        assert (k + 1) * interval == k * interval + interval;
      }
      assert (|nows| - 1) * interval + interval == |nows| * interval;
    }
  }

  /** A session whose loop comes round before the first 10 ms have passed
      fails on the iteration after: the IMU due time became `None`. */
  lemma AsWrittenFailsAfterEarlyLoop(start: int)
    ensures RunAsWritten(Some(start), [start, start + 5, start + 6], IMU_SAMPLE_INTERVAL).Failure?
  {
    assert TickAsWritten(Some(start), start, IMU_SAMPLE_INTERVAL) == Success(Some(start + 10));
    assert TickAsWritten(Some(start + 10), start + 5, IMU_SAMPLE_INTERVAL) == Success(None);
    var nows := [start, start + 5, start + 6];
    assert nows[1..] == [start + 5, start + 6] && nows[1..][1..] == [start + 6];
    assert RunAsWritten(None, [start + 6], IMU_SAMPLE_INTERVAL) == Failure(TypeError);
  }

  /** A run whose every tick reaches its slot of the schedule never stores
      `None`, and the as-written loop ends due exactly where the corrected
      run does. */
  lemma AsWrittenRunAgreesWhenAllDue(ch: Channel, inputs: seq<Input>)
    requires AllDue(ch.due, Clock(inputs), ch.interval)
    ensures RunAsWritten(Some(ch.due), Clock(inputs), ch.interval) == Success(Some(Run(ch, inputs).due))
  {
  }

  /** As long as the as-written tick does not fail it agrees with the
      corrected step on every due tick; the corrected step keeps the due
      time where the as-written one loses it. */
  lemma AsWrittenAgreesWhenDue(ch: Channel, now: int, wall: int, readings: seq<Cell>)
    ensures now >= ch.due ==>
              TickAsWritten(Some(ch.due), now, ch.interval) == Success(Some(Step(ch, now, wall, readings).due))
    ensures now < ch.due ==>
              && TickAsWritten(Some(ch.due), now, ch.interval) == Success(None)
              && Step(ch, now, wall, readings).due == ch.due
  {
  }
}

=== FILE: session.dfy ===
/** The logging session driven by the start button (`start_log` in the main
    program): a two-state toggle that opens a log file named after the RTC
    time, ticks the IMU and GPS channels while the button pin reads low,
    and writes both tables on the first pass that reads it high. GPIO, the file system and
    the camera appear as a trace of effects; clocks and sensor registers
    are inputs. */
module Session {
  import opened Options
  import Bus
  import Bno055
  import Ds3231
  import opened Scheduler

  const USB_DIRECTORY: string := "/media/hsc35/8235-4EBC/data/"
  const LOCAL_DIRECTORY: string := "/home/hsc35/data/"
  const VIDEO_SUFFIX: string := ".mp4"

  /** Level of the start button's input pin. It is pulled up, so a closed
      switch reads `Low` and an open one `High`. */
  datatype Level = Low | High

  /** What the session does to the outside world, in order. */
  datatype Effect =
    | GreenLed(on: bool)
    | OpenLog(path: string)
    | StartCamera(path: string)
    | RecordFrame
    | StopCamera
    | WriteTable(rows: seq<Row>)
    | WriteText(text: string)
    | CloseLog

  /** An active session: its start time, both channels, and the file names. */
  datatype Logging = Logging(start: int, imu: Channel, gps: Channel, fileName: string, videoName: string)

  /** `toggle_state`: idle, or logging. */
  datatype State = Idle | Active(log: Logging)

  datatype Transition = Transition(state: State, effects: seq<Effect>)

  /* ------------------------------------------------------------ file names */

  /** The USB drive when it is mounted, the local data directory otherwise. */
  function Directory(usbPresent: bool): (dir: string)
    ensures dir == USB_DIRECTORY || dir == LOCAL_DIRECTORY
    ensures usbPresent <==> dir == USB_DIRECTORY
  {
    if usbPresent then USB_DIRECTORY else LOCAL_DIRECTORY
  }

  /** The log file name: the directory followed by an RTC timestamp. */
  function LogName(usbPresent: bool, stamp: string): (name: string)
    ensures |name| == |Directory(usbPresent)| + |stamp|
    ensures name[..|Directory(usbPresent)|] == Directory(usbPresent)
    ensures name[|Directory(usbPresent)|..] == stamp
  {
    Directory(usbPresent) + stamp
  }

  /** The video file name: the same directory and a (separately read)
      timestamp, with the `.mp4` extension. */
  function VideoName(usbPresent: bool, stamp: string): (name: string)
    ensures |name| == |LogName(usbPresent, stamp)| + |VIDEO_SUFFIX|
    ensures name[..|LogName(usbPresent, stamp)|] == LogName(usbPresent, stamp)
    ensures name[|LogName(usbPresent, stamp)|..] == VIDEO_SUFFIX
  {
    LogName(usbPresent, stamp) + VIDEO_SUFFIX
  }

  /** Where a log file went and which timestamp names it, read back from the
      name; `None` for a name in neither directory. */
  function SplitLogName(name: string): (r: Option<(bool, string)>)
    ensures r.Some? ==> LogName(r.value.0, r.value.1) == name
  {
    if |name| >= |USB_DIRECTORY| && name[..|USB_DIRECTORY|] == USB_DIRECTORY then
      Some((true, name[|USB_DIRECTORY|..]))
    else if |name| >= |LOCAL_DIRECTORY| && name[..|LOCAL_DIRECTORY|] == LOCAL_DIRECTORY then
      Some((false, name[|LOCAL_DIRECTORY|..]))
    else None
  }

  /** The log name determines both the storage choice and the timestamp. */
  lemma LogNameRoundTrip(usbPresent: bool, stamp: string)
    ensures SplitLogName(LogName(usbPresent, stamp)) == Some((usbPresent, stamp))
  {
    var name := LogName(usbPresent, stamp);
    if !usbPresent {
      assert name[1] == 'h' && USB_DIRECTORY[1] == 'm';
      assert |name| < |USB_DIRECTORY| || name[..|USB_DIRECTORY|] != USB_DIRECTORY;
    }
  }

  /** A log name built from the RTC reads back as the time in the registers. */
  lemma LogNameCarriesTime(usbPresent: bool, rtc: Bus.RegisterFile)
    ensures SplitLogName(LogName(usbPresent, Ds3231.Now(rtc))).Some?
    ensures Ds3231.Parse(SplitLogName(LogName(usbPresent, Ds3231.Now(rtc))).value.1)
            == Some(Ds3231.DecodeTime(Bus.BlockRead(rtc, Ds3231.SECOND, 7)))
  {
    LogNameRoundTrip(usbPresent, Ds3231.Now(rtc));
  }

  /** The video name is the log name plus `.mp4` exactly when both RTC reads
      give the same second. */
  lemma VideoMatchesLog(usbPresent: bool, rtc1: Bus.RegisterFile, rtc2: Bus.RegisterFile)
    ensures VideoName(usbPresent, Ds3231.Now(rtc2)) == LogName(usbPresent, Ds3231.Now(rtc1)) + VIDEO_SUFFIX
            <==> Ds3231.Now(rtc1) == Ds3231.Now(rtc2)
  {
    var s1, s2 := Ds3231.Now(rtc1), Ds3231.Now(rtc2);
    var dir := Directory(usbPresent);
    if VideoName(usbPresent, s2) == LogName(usbPresent, s1) + VIDEO_SUFFIX {
      assert dir + s2 + VIDEO_SUFFIX == dir + s1 + VIDEO_SUFFIX;
      assert |s1| == |s2| == Ds3231.TIMESTAMP_LENGTH;
      assert s2 == (dir + s2 + VIDEO_SUFFIX)[|dir|..|dir| + |s2|];
      assert s1 == (dir + s1 + VIDEO_SUFFIX)[|dir|..|dir| + |s1|];
    }
  }

  /* ------------------------------------------------------------ start */

  /** The session invariant: both channels belong to this session, have
      their own interval and header, and are on schedule. */
  predicate Consistent(l: Logging) {
    && l.imu.start == l.start && l.imu.interval == IMU_SAMPLE_INTERVAL
    && l.gps.start == l.start && l.gps.interval == GPS_SAMPLE_INTERVAL
    && DriftFree(l.imu, IMU_HEADER)
    && DriftFree(l.gps, GPS_HEADER)
  }

  /** `start_log` on a falling edge. It starts a session only from idle and
      with the button pin still low: LED on, a log file and a video named
      after the RTC, both buffers holding their header alone, both channels
      due at the start time. Otherwise nothing happens. */
  function Start(st: State, button: Level, now: int, usbPresent: bool,
                 rtc1: Bus.RegisterFile, rtc2: Bus.RegisterFile): (r: Transition)
    ensures st.Idle? && button == Low ==>
              && r.state.Active?
              && Consistent(r.state.log)
              && r.state.log.start == now
              && Samples(r.state.log.imu) == 0 && Samples(r.state.log.gps) == 0
              && r.state.log.imu.due == now && r.state.log.gps.due == now
              && r.effects == [GreenLed(true), OpenLog(r.state.log.fileName),
                               StartCamera(r.state.log.videoName)]
              && SplitLogName(r.state.log.fileName) == Some((usbPresent, Ds3231.Now(rtc1)))
              && r.state.log.videoName == VideoName(usbPresent, Ds3231.Now(rtc2))
    ensures !(st.Idle? && button == Low) ==> r == Transition(st, [])
  {
    if st.Idle? && button == Low then
      var fileName := LogName(usbPresent, Ds3231.Now(rtc1));
      var videoName := VideoName(usbPresent, Ds3231.Now(rtc2));
      LogNameRoundTrip(usbPresent, Ds3231.Now(rtc1));
      var l := Logging(now, Open(IMU_SAMPLE_INTERVAL, now, IMU_HEADER),
                       Open(GPS_SAMPLE_INTERVAL, now, GPS_HEADER), fileName, videoName);
      Transition(Active(l), [GreenLed(true), OpenLog(fileName), StartCamera(videoName)])
    else
      Transition(st, [])
  }

  /* ------------------------------------------------------------ loop */

  /** What one pass of the logging loop observes: each channel's clock and
      wall-clock readings, the IMU registers, the GPS reading, and the
      button level afterwards. */
  datatype LoopInput = LoopInput(imuNow: int, imuWall: int, imuRegs: Bus.RegisterFile,
                                 gpsNow: int, gpsWall: int, fix: GpsFix, button: Level)

  /** Both channels ticked once, IMU first. */
  function Advance(l: Logging, imu: Bno055.Imu, i: LoopInput): (r: Logging)
    ensures r.start == l.start && r.fileName == l.fileName && r.videoName == l.videoName
    ensures Consistent(l) ==> Consistent(r)
    ensures Consistent(l) ==> && Samples(l.imu) <= Samples(r.imu) <= Samples(l.imu) + 1
                              && Samples(l.gps) <= Samples(r.gps) <= Samples(l.gps) + 1
    ensures Consistent(l) ==> (i.imuNow >= l.imu.due <==> Samples(r.imu) == Samples(l.imu) + 1)
    ensures Consistent(l) ==> (i.gpsNow >= l.gps.due <==> Samples(r.gps) == Samples(l.gps) + 1)
    ensures |l.imu.rows| <= |r.imu.rows| && r.imu.rows[..|l.imu.rows|] == l.imu.rows
    ensures |l.gps.rows| <= |r.gps.rows| && r.gps.rows[..|l.gps.rows|] == l.gps.rows
    ensures i.imuNow >= l.imu.due ==>
              && |r.imu.rows| == |l.imu.rows| + 1
              && r.imu.rows[|l.imu.rows|] == [Timestamp(i.imuWall), Elapsed(l.imu.due - l.imu.start)]
                                             + ImuReadings(imu, i.imuRegs)
    ensures i.gpsNow >= l.gps.due ==>
              && |r.gps.rows| == |l.gps.rows| + 1
              && r.gps.rows[|l.gps.rows|] == [Timestamp(i.gpsWall), Elapsed(l.gps.due - l.gps.start)]
                                             + GpsReadings(i.fix)
  {
    var imuCh := ImuStep(l.imu, i.imuNow, i.imuWall, imu, i.imuRegs);
    var gpsCh := GpsStep(l.gps, i.gpsNow, i.gpsWall, i.fix);
    LogFunctionsAreSteps(l.imu, i.imuNow, i.imuWall, imu, i.imuRegs, i.fix);
    LogFunctionsAreSteps(l.gps, i.gpsNow, i.gpsWall, imu, i.imuRegs, i.fix);
    StepKeepsDriftFree(l.imu, IMU_HEADER, i.imuNow, i.imuWall, ImuReadings(imu, i.imuRegs));
    StepKeepsDriftFree(l.gps, GPS_HEADER, i.gpsNow, i.gpsWall, GpsReadings(i.fix));
    l.(imu := imuCh, gps := gpsCh)
  }

  /** The effects of stopping a session: LED off, camera stopped, the IMU
      table, a newline, the GPS table, and the file closed. */
  predicate StopsWith(es: seq<Effect>, imuRows: seq<Row>, gpsRows: seq<Row>) {
    es == [GreenLed(false), StopCamera, WriteTable(imuRows), WriteText("\n"),
           WriteTable(gpsRows), CloseLog]
  }

  /** One pass of the logging loop: tick both channels, record a video frame,
      then stop if the button pin reads high. */
  function Iterate(l: Logging, imu: Bno055.Imu, i: LoopInput): (r: Transition)
    ensures i.button == Low <==> r.state.Active?
    ensures i.button == Low ==> r.effects == [RecordFrame]
                                && r.state.log == Advance(l, imu, i)
    ensures i.button == High ==> && |r.effects| == 7
                                 && r.effects[0] == RecordFrame
                                 && StopsWith(r.effects[1..], Advance(l, imu, i).imu.rows,
                                              Advance(l, imu, i).gps.rows)
  {
    var next := Advance(l, imu, i);
    match i.button
    case High =>
      Transition(Idle, [RecordFrame, GreenLed(false), StopCamera, WriteTable(next.imu.rows),
                        WriteText("\n"), WriteTable(next.gps.rows), CloseLog])
    case Low =>
      Transition(Active(next), [RecordFrame])
  }

  /** The loop run over a sequence of passes, ending at the first pass that
      sees the button pin high. */
  function Loop(l: Logging, imu: Bno055.Imu, inputs: seq<LoopInput>): (r: Transition)
    ensures r.state.Active? <==> Held(inputs)
    ensures r.state.Active? ==> |r.effects| == |inputs|
    ensures r.state.Idle? ==> |r.effects| >= 7 && r.effects[|r.effects| - 1] == CloseLog
    decreases |inputs|
  {
    if |inputs| == 0 then Transition(Active(l), [])
    else
      HeldCons(inputs);
      var t := Iterate(l, imu, inputs[0]);
      if t.state.Idle? then t
      else
        var rest := Loop(t.state.log, imu, inputs[1..]);
        Transition(rest.state, t.effects + rest.effects)
  }

  /** `n` video frames. */
  function Frames(n: nat): (es: seq<Effect>)
    ensures |es| == n && forall k :: 0 <= k < n ==> es[k] == RecordFrame
  {
    seq(n, _ => RecordFrame)
  }

  predicate HeldUntilLast(inputs: seq<LoopInput>) {
    && |inputs| >= 1
    && inputs[|inputs| - 1].button == High
    && forall k :: 0 <= k < |inputs| - 1 ==> inputs[k].button == Low
  }

  predicate Held(inputs: seq<LoopInput>) {
    forall k :: 0 <= k < |inputs| ==> inputs[k].button == Low
  }

  /** A pass with the button held records one frame and hands the advanced
      session to the rest of the loop. */
  lemma HeldPass(l: Logging, imu: Bno055.Imu, inputs: seq<LoopInput>)
    requires |inputs| > 0 && inputs[0].button == Low
    ensures var rest := Loop(Advance(l, imu, inputs[0]), imu, inputs[1..]);
            Loop(l, imu, inputs) == Transition(rest.state, [RecordFrame] + rest.effects)
  {
  }

  lemma FramesCons(n: nat)
    ensures [RecordFrame] + Frames(n) == Frames(n + 1)
  {
  }

  lemma HeldCons(inputs: seq<LoopInput>)
    requires |inputs| > 0
    ensures Held(inputs) <==> inputs[0].button == Low && Held(inputs[1..])
  {
    if inputs[0].button == Low && Held(inputs[1..]) {
      forall k | 0 <= k < |inputs| ensures inputs[k].button == Low {
        if k > 0 {
          assert inputs[k] == inputs[1..][k - 1];
        }
      }
    }
    if Held(inputs) {
      forall k | 0 <= k < |inputs[1..]| ensures inputs[1..][k].button == Low {
        assert inputs[1..][k] == inputs[k + 1];
      }
    }
  }

  lemma HeldUntilLastTail(inputs: seq<LoopInput>)
    requires |inputs| > 1 && HeldUntilLast(inputs)
    ensures inputs[0].button == Low && HeldUntilLast(inputs[1..])
  {
    forall k | 0 <= k < |inputs[1..]| - 1 ensures inputs[1..][k].button == Low {
      assert inputs[1..][k] == inputs[k + 1];
    }
  }

  /** The IMU channel's view of the passes: each pass's clock, its wall
      time and the IMU's readings from that pass's registers. */
  function ImuInputs(imu: Bno055.Imu, inputs: seq<LoopInput>): (r: seq<Input>)
    ensures |r| == |inputs|
    ensures forall k :: 0 <= k < |inputs| ==>
              r[k] == Input(inputs[k].imuNow, inputs[k].imuWall, ImuReadings(imu, inputs[k].imuRegs))
  {
    seq(|inputs|, k requires 0 <= k < |inputs| =>
                    Input(inputs[k].imuNow, inputs[k].imuWall, ImuReadings(imu, inputs[k].imuRegs)))
  }

  /** The GPS channel's view of the passes. */
  function GpsInputs(inputs: seq<LoopInput>): (r: seq<Input>)
    ensures |r| == |inputs|
    ensures forall k :: 0 <= k < |inputs| ==>
              r[k] == Input(inputs[k].gpsNow, inputs[k].gpsWall, GpsReadings(inputs[k].fix))
  {
    seq(|inputs|, k requires 0 <= k < |inputs| =>
                    Input(inputs[k].gpsNow, inputs[k].gpsWall, GpsReadings(inputs[k].fix)))
  }

  /** One pass of the loop is the first tick of each channel's run: the
      rest of the run from the advanced session ends where the whole run
      from the current one does. */
  lemma AdvanceIsRunStep(l: Logging, imu: Bno055.Imu, inputs: seq<LoopInput>)
    requires |inputs| > 0
    requires l.imu.interval == IMU_SAMPLE_INTERVAL && l.gps.interval == GPS_SAMPLE_INTERVAL
    ensures Scheduler.Run(Advance(l, imu, inputs[0]).imu, ImuInputs(imu, inputs[1..]))
            == Scheduler.Run(l.imu, ImuInputs(imu, inputs))
    ensures Scheduler.Run(Advance(l, imu, inputs[0]).gps, GpsInputs(inputs[1..]))
            == Scheduler.Run(l.gps, GpsInputs(inputs))
  {
    var i := inputs[0];
    LogFunctionsAreSteps(l.imu, i.imuNow, i.imuWall, imu, i.imuRegs, i.fix);
    LogFunctionsAreSteps(l.gps, i.gpsNow, i.gpsWall, imu, i.imuRegs, i.fix);
    assert ImuInputs(imu, inputs)[1..] == ImuInputs(imu, inputs[1..]);
    assert GpsInputs(inputs)[1..] == GpsInputs(inputs[1..]);
  }

  /** While the button pin stays low the session stays active, its file and
      schedule intact, and writes nothing but video frames; each channel
      holds exactly what its own run over the passes has sampled. */
  lemma {:induction false} HeldLoopEmitsNothing(l: Logging, imu: Bno055.Imu, inputs: seq<LoopInput>)
    requires Consistent(l) && Held(inputs)
    ensures var r := Loop(l, imu, inputs);
            && r.state.Active?
            && Consistent(r.state.log)
            && r.state.log.fileName == l.fileName
            && r.state.log.start == l.start
            && r.state.log.imu == Scheduler.Run(l.imu, ImuInputs(imu, inputs))
            && r.state.log.gps == Scheduler.Run(l.gps, GpsInputs(inputs))
            && r.effects == Frames(|inputs|)
    decreases |inputs|
  {
    if |inputs| > 0 {
      var next := Advance(l, imu, inputs[0]);
      HeldPass(l, imu, inputs);
      HeldCons(inputs);
      AdvanceIsRunStep(l, imu, inputs);
      HeldLoopEmitsNothing(next, imu, inputs[1..]);
      FramesCons(|inputs| - 1);
    }
  }

  /** The effects of a session stopped on its last pass: one frame per
      pass, then the stop sequence with the given tables. */
  predicate StoppedAfter(es: seq<Effect>, passes: nat, imuTable: seq<Row>, gpsTable: seq<Row>) {
    && |es| == passes + 6
    && es[..passes] == Frames(passes)
    && StopsWith(es[passes..], imuTable, gpsTable)
  }

  /** One more held pass in front keeps the shape, with one more frame. */
  lemma StoppedAfterCons(es: seq<Effect>, passes: nat, imuTable: seq<Row>, gpsTable: seq<Row>)
    requires StoppedAfter(es, passes, imuTable, gpsTable)
    ensures StoppedAfter([RecordFrame] + es, passes + 1, imuTable, gpsTable)
  {
    var es' := [RecordFrame] + es;
    assert es'[..passes + 1] == [RecordFrame] + es[..passes];
    FramesCons(passes);
    assert es'[passes + 1..] == es[passes..];
  }

  /** A session whose button pin reads low on every pass but the last, and
      high on the last, ends idle after one frame per pass and the stop
      sequence, whose two tables are the rows of each channel's run over
      all the passes. */
  lemma {:induction false} StopWritesRuns(l: Logging, imu: Bno055.Imu, inputs: seq<LoopInput>)
    requires Consistent(l) && HeldUntilLast(inputs)
    ensures Loop(l, imu, inputs).state == Idle
    ensures StoppedAfter(Loop(l, imu, inputs).effects, |inputs|,
                         Scheduler.Run(l.imu, ImuInputs(imu, inputs)).rows,
                         Scheduler.Run(l.gps, GpsInputs(inputs)).rows)
    decreases |inputs|
  {
    if |inputs| == 1 {
      StopPass(l, imu, inputs);
    } else {
      var next := Advance(l, imu, inputs[0]);
      AdvanceIsRunStep(l, imu, inputs);
      HeldUntilLastTail(inputs);
      HeldPass(l, imu, inputs);
      StopWritesRuns(next, imu, inputs[1..]);
      StoppedAfterCons(Loop(next, imu, inputs[1..]).effects, |inputs| - 1,
                        Scheduler.Run(next.imu, ImuInputs(imu, inputs[1..])).rows,
                        Scheduler.Run(next.gps, GpsInputs(inputs[1..])).rows);
    }
  }

  /** A single pass that sees the button pin high stops the session with
      the tables of one tick of each channel. */
  lemma StopPass(l: Logging, imu: Bno055.Imu, inputs: seq<LoopInput>)
    requires |inputs| == 1 && inputs[0].button == High
    requires l.imu.interval == IMU_SAMPLE_INTERVAL && l.gps.interval == GPS_SAMPLE_INTERVAL
    ensures Loop(l, imu, inputs).state == Idle
    ensures StoppedAfter(Loop(l, imu, inputs).effects, 1,
                         Scheduler.Run(l.imu, ImuInputs(imu, inputs)).rows,
                         Scheduler.Run(l.gps, GpsInputs(inputs)).rows)
  {
    AdvanceIsRunStep(l, imu, inputs);
    var t := Iterate(l, imu, inputs[0]);
    assert Loop(l, imu, inputs) == t;
    assert t.effects[..1] == Frames(1);
  }

  /** Hence the session writes, exactly once, the IMU table and the GPS
      table, each headed by its header row, on its drift-free schedule, and
      extending the rows the session started with by at most one sample per
      pass. */
  lemma StopWritesTables(l: Logging, imu: Bno055.Imu, inputs: seq<LoopInput>)
    requires Consistent(l) && HeldUntilLast(inputs)
    ensures Loop(l, imu, inputs).state == Idle
    ensures var imuTable := Scheduler.Run(l.imu, ImuInputs(imu, inputs)).rows;
            var gpsTable := Scheduler.Run(l.gps, GpsInputs(inputs)).rows;
            && StoppedAfter(Loop(l, imu, inputs).effects, |inputs|, imuTable, gpsTable)
            && Scheduled(imuTable, IMU_HEADER, IMU_SAMPLE_INTERVAL)
            && Scheduled(gpsTable, GPS_HEADER, GPS_SAMPLE_INTERVAL)
            && |l.imu.rows| <= |imuTable| <= |l.imu.rows| + |inputs|
            && |l.gps.rows| <= |gpsTable| <= |l.gps.rows| + |inputs|
            && imuTable[..|l.imu.rows|] == l.imu.rows
            && gpsTable[..|l.gps.rows|] == l.gps.rows
  {
    StopWritesRuns(l, imu, inputs);
    RunKeepsDriftFree(l.imu, IMU_HEADER, ImuInputs(imu, inputs));
    RunKeepsDriftFree(l.gps, GPS_HEADER, GpsInputs(inputs));
  }

  /* ------------------------------------------------------------ setup */

  /** The program's own setup: after a successful initialisation the IMU is
      switched to ACCGYRO, in which both readings are numbers. */
  lemma SetupYieldsReadings(address: Bus.Byte, regs: Bus.RegisterFile, units: Bus.Byte, data: Bus.RegisterFile)
    requires Bno055.Initialize(address, regs, units).result.Success?
    ensures var imu := Bno055.Initialize(address, regs, units).result.value;
            && Bno055.SetMode(imu, Bno055.ACCGYRO).result.Success?
            && Bno055.SetMode(imu, Bno055.ACCGYRO).result.value.mode == Bno055.ACCGYRO
            && Bno055.Complete(Bno055.Run(Bno055.SetMode(imu, Bno055.ACCGYRO).result.value, data).0)
            && Bno055.Complete(Bno055.Run(Bno055.SetMode(imu, Bno055.ACCGYRO).result.value, data).1)
  {
  }
}
